=== FILE: README.md ===
# A verified model of the node-dcom NDR union, remote-object proxy and AlterContext body

This project models three cooperating pieces of the node-dcom DCOM client in Dafny
and proves properties of them:

- **The NDR discriminated union** (`NdrUnion`, over the primitive codec in `Ndr`).
  A union carries a discriminant class (Integer, Short, Boolean or Character) and an
  insertion-ordered catalog that maps discriminant values to members. To be encoded
  it must hold exactly one entry. The encoder writes the discriminant and then the
  member; the empty-member sentinel writes nothing. As a decode catalog it picks the
  member shape for the discriminant read off the wire. An unknown discriminant gives
  the empty sentinel. The result is a fresh one-entry union.
- **The remote-object proxy** (`ComObjectImpl`): an immutable record (session,
  interface pointer, local-only flag, timeout, dual-interface cache, connection-point
  map) plus one function per operation. Each function returns a `Step`: the proxy
  afterwards, the requests handed to the session in order, and the result or error.
  Whatever the session or stub would answer is a parameter of the operation.
- **The AlterContext PDU body** (`AlterContextPdu`): the body fields, the writer and
  the reader. The body is a sequence of tokens. Integer fields are octets,
  little-endian. Each presentation context is one opaque token.

`Wrappers` holds `Option`/`Result`, and `Errors` holds the error kinds the code
throws.

The primitive (de)serialiser the union calls (MarshalUnMarshalHelper) is not part of
this model. `Ndr` gives a concrete stand-in over a closed set of wire types:

| wire type | encoding |
|---|---|
| 32-bit integer | two's complement, 4 bytes |
| 16-bit short | two's complement, 2 bytes |
| boolean | 1 byte |
| character | 1 byte |
| byte array | conformant: a 32-bit count, then the bytes |

All of these are little-endian. `Ndr` proves that each decoder reads back exactly
what its encoder wrote and consumes exactly those bytes (`Ndr.SerializeRoundTrip`).

## Reading of the source

The JavaScript was ported from Java and several lines could not run as written. The
model follows the evident intent at these points:

- `union.js` declares `addMember` twice, and JavaScript keeps the later one (62-78).
  That body uses names the file never defines: the unqualified `discriminantClass`,
  `getClass()` on a discriminant, `IllegalArgumentException`, `JISystem`,
  `JIException` and `JIStruct`. The model compares the discriminant's class with the
  union's own class. It uses one sentinel, `Empty`, for both `JIStruct.MEMBER_IS_EMPTY`
  and `Struct.MEMBER_IS_EMPTY`.
- `union.js:137` builds the decode result with `new Union()`. That call fails the
  constructor's guard at :22. `NdrUnion.Decode` models the intent: a fresh union with
  the receiver's discriminant class (:138). `NdrUnion.DecodeAsWritten` models the code
  as written (see Findings). Unions are values here, so decoding cannot change the
  receiver's catalog: the decode catalog is only read, as union.js:128-158 only reads it.
- `comobjcimpl.js` declares `call` twice. The later `call(obj, socketTimetout)` at
  200-211 is the effective one. A one-argument call reaches it with the timeout
  undefined; the model writes that as `None`, which is forwarded as no timeout.
- `release` (comobjcimpl.js:94) builds an `IArray`, which the file never defines, so
  as written it throws before sending anything (`ComObjectImpl.ReleaseAsWritten`).
  That throw lands inside the probe's try (146-152), so as written the dual-interface
  probe always answers false (`ComObjectImpl.IsDispatchSupportedAsWritten`). The
  corrected `ComObjectImpl.Release` gives the array the same in-parameters as `addRef`.
- `release` (comobjcimpl.js:100) passes `this.ptr.getIPID` without calling it
  (`ComObjectImpl.ReleaseMethodReference`, with :94 read as intended); see Findings.
- `internal_setConnectionInfo`, `internal_getConnectionInfo` and
  `internal_removeConnectionInfo` call `put` (comobjcimpl.js:166), `get` (:173) and
  `delete` (:179) on a map from the 'hashmap' package, which is not part of this
  model. The model reads them as a map's set, get and delete on a Dafny `map`.
- `equals` (comobjcimpl.js:124) calls `equalsIgnoreCase`, which is not a JavaScript
  string method. The model compares the IPIDs case-insensitively.
- `readBody` (altercontextpdu.js:63) calls its local array as a function, so as
  written it never returns (`AlterContextPdu.ReadBodyAsWritten`).
  `AlterContextPdu.ReadFixedFields` is its four field reads (54-57).
  `AlterContextPdu.ReadBody` is the intended reader: it reads the group as a u32 and
  stores the list it read.
- `readBody` (altercontextpdu.js:58) starts the list as `[count]`, a one-element array
  holding the number, not an array of `count` slots. For a count of 0 the list would
  be `[0]`. `AlterContextPdu.ReadBody` also corrects this line: it returns exactly the
  contexts read, so an empty list reads back as empty. As written the line has no
  visible effect, because line 63 always throws first.
- `readBody` (altercontextpdu.js:54-56) calls `readUnsingedShort`, spelled differently
  from the `writeUnsignedShort` that `writeBody` uses. The NDR buffer is not part of
  this model; the model reads that call as the buffer's unsigned 16-bit read.
- `encode` (union.js:115) calls `value.equals(...)` on the member. A primitive member
  (a JavaScript number or boolean) has no `equals`, so as written encoding such a
  member throws a TypeError. The model compares the member with the empty sentinel.
- `addMember` (union.js:67) as written throws on every call with a non-null
  discriminant, through `discriminant.getClass()` and the undefined
  `discriminantClass`. Unlike lines 94 and 137, the model has no as-written member for
  it: `NdrUnion.AddMember` models only the intended class check.
- `getLength` (union.js:163) runs over the catalog's keys, the discriminants. The
  model does the same (`NdrUnion.GetLength`). The length the wire format intends
  (discriminant plus largest member) is `NdrUnion.GetLengthOfMembers`.

## Model

| member | source | states |
|---|---|---|
| `NdrUnion.New` | dcom/core/union.js:20-28 | construction succeeds exactly for the class names Integer, Short, Boolean, Character; anything else, or no argument, fails with UNION_INCORRECT_DISC; a new union has an empty catalog |
| `NdrUnion.ParseKindName` | dcom/core/union.js:22 | every accepted discriminant class is recognised by its own name |
| `NdrUnion.AddMember` | dcom/core/union.js:62-78 | a null discriminant fails with UNION_NULL_DISCRMINANT, one of another class with UNION_DISCRMINANT_MISMATCH; otherwise the discriminant maps to the member (a null member to the empty sentinel), every other key maps to what it did before, and the catalog stays valid |
| `NdrUnion.Put` | dcom/core/union.js:75 | Map.set: the key maps to the new member, other keys are unchanged, other entries keep their positions, an existing key is replaced in place and a new one is appended |
| `NdrUnion.PutDistinct` | dcom/core/union.js:75 | setting a key never creates a duplicate key |
| `NdrUnion.Remove` | dcom/core/union.js:85 | Map.delete: the key is gone, every other key maps to what it did before, the entries are a subset of the old ones, and the catalog shrinks by one exactly when the key was present |
| `NdrUnion.RemoveMember` | dcom/core/union.js:84-86 | removeMember deletes exactly the given discriminant, keeps the class and all other entries, and keeps the union valid |
| `NdrUnion.Encode` | dcom/core/union.js:102-119 | any catalog size other than one fails with UNION_DISCRMINANT_SERIALIZATION_ERROR; a valid one-entry union always encodes; the output is the discriminant's encoding followed by the member's encoding, which is empty for the sentinel |
| `NdrUnion.Decode` | dcom/core/union.js:128-158 | an empty catalog fails with UNION_DISCRMINANT_DESERIALIZATION_ERROR and short input with an unmarshalling error; success gives a valid one-entry union of the receiver's class whose key is the discriminant read from the first bytes and whose member, when present, is the value read right after it; its member is empty exactly when the catalog has no member or the sentinel for the decoded discriminant, in which case nothing after the discriminant is consumed; otherwise the member has the registered shape's class |
| `NdrUnion.DecodeEncode` | dcom/core/union.js:102-158 | decoding what a one-entry union encoded, against any catalog that has a matching shape for its discriminant, returns that same union and consumes exactly the encoded bytes |
| `NdrUnion.DecodeOwnEncoding` | dcom/core/union.js:102-158 | a valid one-entry union decodes its own encoding back to itself |
| `NdrUnion.DecodeAsWritten` | dcom/core/union.js:131-138 | as written, decode of any non-empty catalog fails with UNION_INCORRECT_DISC, because the result is built with `new Union()` |
| `NdrUnion.DecodeAsWrittenRefuses` | dcom/core/union.js:137 | a union whose own encoding decodes under the intended reading is refused by the code as written |
| `NdrUnion.GetAlignment` | dcom/core/union.js:171-184 | the alignment is the discriminant's width when that is more than one byte (4 for Integer, 2 for Short) and 0 otherwise |
| `NdrUnion.MaxKeyLength` | dcom/core/union.js:163-166 | the loop's running maximum: no key is longer, and for a non-empty catalog some key has exactly that length |
| `NdrUnion.GetLength` | dcom/core/union.js:160-169 | getLength is the largest key length plus the discriminant width, so it is at least the discriminant width and at least any key's length plus that width |
| `NdrUnion.KeyLengthIsDiscriminantWidth` | dcom/core/union.js:163-168 | since every key of a valid union has the discriminant's class, getLength as written is twice the discriminant width for any non-empty catalog |
| `NdrUnion.MaxMemberLength` | dcom/core/union.js:163-166 | the maximum over members (sentinel counting 0) bounds every member's length and is attained by one |
| `NdrUnion.EncodeFitsLength` | dcom/core/union.js:160-169 | with the intended length, any single entry of the catalog encodes within the union's length |
| `NdrUnion.GetLengthOfMembers` | dcom/core/union.js:160-169 | the length as intended (the comment at :165 says "length of the largest member"): at least the discriminant width, at least every member's length plus that width, and equal to it for some member (the discriminant width alone for an empty catalog) |
| `NdrUnion.GetLengthUnderestimates` | dcom/core/union.js:163 | an Integer union with a 10-byte array member encodes to 18 bytes while getLength as written reports 8 |
| `Ndr.SerializeAs` | dcom/core/union.js:109 | serialising as a class succeeds exactly when the value has that class |
| `Ndr.Serialize` | dcom/core/union.js:164-168 | the encoding of a value is exactly as long as the length the size rule gives for it |
| `Ndr.Deserialize` | dcom/core/union.js:140-152 | reading a class yields a value of that class and consumes its length; it fails exactly when the input is shorter than the class's width or than an array's declared length |
| `Ndr.SerializeRoundTrip` | dcom/core/union.js:107-152 | deserialising a value's encoding as its own class returns the value and its length, whatever bytes follow |
| `ComObjectImpl.Create` | dcom/core/comobjcimpl.js:18-33 | a new proxy keeps the given session and pointer, is local only when told so, and starts with no dual-interface answer, timeout 0 and no connection map |
| `ComObjectImpl.CheckLocal` | dcom/core/comobjcimpl.js:41-50 | the guard passes exactly for an attached, non-local proxy; a missing session is SESSION_NOT_ATTACHED even for a local proxy, and a local proxy with a session is E_NOTIMPL |
| `ComObjectImpl.QueryInterface` | dcom/core/comobjcimpl.js:52-56 | guarded; asks the stub for the interface with this IPID and returns its answer, success or failure, unchanged |
| `ComObjectImpl.AddRef` | dcom/core/comobjcimpl.js:58-83 | guarded; sends one reference-count call for this IPID: a builder with no session, this IPID as parent, opnum 1, in-params short 1, the one-element IPID array, int 5 and int 0, two integer out-params, delta +5; it fails exactly when the result at index 1 is missing or non-zero |
| `ComObjectImpl.Release` | dcom/core/comobjcimpl.js:85-101 | release with lines 94 and 100 read as intended: guarded; sends one reference-count call for this IPID with delta -5, whose builder has no session, this IPID as parent, opnum 2, the same in-params as addRef and no out-params |
| `ComObjectImpl.ReleaseAsWritten` | dcom/core/comobjcimpl.js:85-94 | as written: after the guard, line 94 refers to `IArray`, which the file never defines, so every release of an attached proxy fails with a ReferenceError and sends nothing; the proxy is unchanged |
| `ComObjectImpl.ReleaseMethodReference` | dcom/core/comobjcimpl.js:100 | with line 94 read as intended and line 100 as written: the call is the same as the intended one, but the object identifier handed to the session is the getIPID method, not the IPID |
| `ComObjectImpl.RefCountBalanced` | dcom/core/comobjcimpl.js:58-101 | an addRef followed by a release leaves the net reference delta requested for the IPID at zero |
| `ComObjectImpl.ReleaseAsWrittenLeaksBatch` | dcom/core/comobjcimpl.js:78-100 | after addRef, neither release as written (throwing at :94) nor release with only :94 repaired (naming the method at :100) gives anything back: the IPID's net delta stays at +5 |
| `ComObjectImpl.Call` | dcom/core/comobjcimpl.js:200-211 | guarded; without a pointer it fails and sends nothing; otherwise it sends exactly one stub call: the caller's call with only the session and IPID replaced, the out-parameters kept, and the proxy's IID; a timeout is forwarded exactly when one is given and it is not 0; the stub's outputs or error are returned unchanged |
| `ComObjectImpl.OneArgumentCallIgnoresTimeout` | dcom/core/comobjcimpl.js:103-107 | the one-argument call reaches the later declaration with its timeout undefined: what is sent does not depend on the proxy's timeout, and no timeout reaches the stub |
| `ComObjectImpl.InternalGetInterfacePointer` | dcom/core/comobjcimpl.js:109-111 | the proxy's own pointer when set, else the stub's server pointer; only a proxy with neither pointer nor session fails |
| `ComObjectImpl.SetIsDual` | dcom/core/comobjcimpl.js:235-239 | records the answer, marks the question answered, changes nothing else |
| `ComObjectImpl.IsDispatchSupported` | dcom/core/comobjcimpl.js:142-156 | with release as intended: guarded; afterwards the answer is known and returned; with a cached answer nothing is sent and the cache is returned; a failed query caches and returns false; only the cache fields change |
| `ComObjectImpl.ProbeIsCached` | dcom/core/comobjcimpl.js:142-156 | asking a second time sends nothing and returns the first answer, whatever the stub would answer now |
| `ComObjectImpl.ProbeReleasesTemporary` | dcom/core/comobjcimpl.js:147-149 | with release as intended (lines 94 and 100 corrected), a successful probe sends the IDispatch query and then releases the batch held by the temporary proxy, answering true |
| `ComObjectImpl.IsDispatchSupportedAsWritten` | dcom/core/comobjcimpl.js:142-156 | as written: the same guard and cache, but the temporary's release throws inside the try, so it falls to the catch |
| `ComObjectImpl.ProbeAsWrittenAnswersNo` | dcom/core/comobjcimpl.js:142-156 | as written, the first probe of an attached proxy caches and answers false whatever the stub answers, and gives no references back |
| `ComObjectImpl.SetConnectionInfo` | dcom/core/comobjcimpl.js:158-168 | guarded; creates the map if needed, stores the (connection point, cookie) pair under the given identifier, returns that identifier, and changes no other field |
| `ComObjectImpl.GetConnectionInfo` | dcom/core/comobjcimpl.js:170-174 | guarded; fails while the map was never created; otherwise returns a pair exactly when the identifier is stored |
| `ComObjectImpl.RemoveConnectionInfo` | dcom/core/comobjcimpl.js:176-180 | guarded; fails while the map was never created; otherwise the stored identifiers lose exactly the given one and no other field changes |
| `ComObjectImpl.SetThenGet` | dcom/core/comobjcimpl.js:158-174 | after storing under an identifier, getting that identifier yields the stored pair |
| `ComObjectImpl.SetKeepsOthers` | dcom/core/comobjcimpl.js:158-174 | storing under one identifier does not change what any other identifier yields |
| `ComObjectImpl.RemoveThenGet` | dcom/core/comobjcimpl.js:170-180 | after removing an identifier it yields nothing, and every other identifier yields what it did before |
| `ComObjectImpl.GetTimeout` | dcom/core/comobjcimpl.js:213-217 | guarded; returns the instance-level timeout without sending anything |
| `ComObjectImpl.SetTimeout` | dcom/core/comobjcimpl.js:219-223 | guarded; changes only the timeout and sends nothing |
| `ComObjectImpl.SetThenGetTimeout` | dcom/core/comobjcimpl.js:213-223 | the timeout read back is the one last set |
| `ComObjectImpl.Fold` | dcom/core/comobjcimpl.js:124 | case folding keeps the length and lowers each character independently |
| `ComObjectImpl.IgnoreCaseIsFoldedEquality` | dcom/core/comobjcimpl.js:124 | two IPIDs are equal ignoring case exactly when their case-folded forms are equal |
| `ComObjectImpl.Equals` | dcom/core/comobjcimpl.js:118-125 | false for anything that is not a proxy; otherwise case-insensitive IPID equality; it fails exactly when one of the two proxies has no interface pointer |
| `ComObjectImpl.EqualsReflexive` | dcom/core/comobjcimpl.js:118-125 | a proxy with a pointer equals itself |
| `ComObjectImpl.EqualsSymmetric` | dcom/core/comobjcimpl.js:118-125 | equality of two proxies does not depend on the order they are compared in |
| `ComObjectImpl.EqualsTransitive` | dcom/core/comobjcimpl.js:118-125 | equality of proxies is transitive |
| `ComObjectImpl.GuardComesFirst` | dcom/core/comobjcimpl.js:41-50 | for every remote operation, a failing guard means no request is sent, the proxy is unchanged and the guard's error is returned |
| `ComObjectImpl.RefusingProxyIsInert` | dcom/core/comobjcimpl.js:41-50 | a proxy whose guard fails sends nothing and stays unchanged over any sequence of operations |
| `ComObjectImpl.DetachedReportsSession` | dcom/core/comobjcimpl.js:43-45 | without a session every remote operation fails with SESSION_NOT_ATTACHED |
| `AlterContextPdu.Fresh` | dcom/rpc/pdu/altercontextpdu.js:5-15 | a new PDU has both fragment sizes unset (-1), association group 0 and no context list |
| `AlterContextPdu.GetType` | dcom/rpc/pdu/altercontextpdu.js:17-19 | the packet type is 0x0e, distinct from the Shutdown type 0x11 |
| `AlterContextPdu.SettersAreIndependent` | dcom/rpc/pdu/altercontextpdu.js:21-51 | each getter returns the value its setter stored last, and no setter changes another field |
| `AlterContextPdu.FragmentField` | dcom/rpc/pdu/altercontextpdu.js:69-72 | a fragment size of -1 is written as the buffer capacity, any other value as itself |
| `AlterContextPdu.WriteBody` | dcom/rpc/pdu/altercontextpdu.js:66-80 | u16 max transmit, u16 max receive (each -1 replaced by the capacity) and u32 association group are always written; without a context list it then fails with exactly those 8 octets in the buffer; otherwise a u8 context count and the contexts in list order follow, 9 octets plus one token per context |
| `AlterContextPdu.ReadWritten` | dcom/rpc/pdu/altercontextpdu.js:54-76 | a w-byte read at the place of a w-byte write returns the written value modulo 256^w |
| `AlterContextPdu.ReadFixedFields` | dcom/rpc/pdu/altercontextpdu.js:53-57 | as written: two u16 fragment sizes, the association group as a u16, then a u8 count; it succeeds exactly when all four reads do |
| `AlterContextPdu.ReadFixedAfterWrite` | dcom/rpc/pdu/altercontextpdu.js:53-73 | on a written body, the fragment sizes come back as written, but the association group comes back as its low 16 bits and the count as the group's third byte |
| `AlterContextPdu.AssociationGroupMisread` | dcom/rpc/pdu/altercontextpdu.js:56 | for in-range fragment sizes, an association group of 0x10000 is read back as 0 with a count of 1, whatever the context list |
| `AlterContextPdu.ReadBodyAsWritten` | dcom/rpc/pdu/altercontextpdu.js:53-63 | as written: each field is stored on the PDU as it is read, and a failed read leaves the earlier ones stored; the count and the contexts are read after the u16 group; it always fails, with a TypeError at :63 when every read succeeds, and never stores a context list |
| `AlterContextPdu.ReadBodyAsWrittenThrows` | dcom/rpc/pdu/altercontextpdu.js:53-63 | reading back any written body whose association group is below 2^16 gets through every read and throws at :63: the group is stored, the context list is not |
| `AlterContextPdu.ReadContexts` | dcom/rpc/pdu/altercontextpdu.js:57-62 | reading n contexts returns exactly the n context tokens found from that position on |
| `AlterContextPdu.ReadBody` | dcom/rpc/pdu/altercontextpdu.js:53-63 | the intended reader returns a context list and consumes 9 tokens plus one per context |
| `AlterContextPdu.BodyRoundTrip` | dcom/rpc/pdu/altercontextpdu.js:53-80 | reading a written body with the intended reader recovers every field (unset fragment sizes as the capacity written), whatever follows |

## Left out

- Alignment padding and the NDR buffer itself: the stand-in codec writes fields back to back. The buffer's code is not part of this model.
- MarshalUnMarshalHelper's real encodings, inferClass for other classes, pointers, strings and structs: only the closed set of wire types above is modelled.
- `Ndr`: the NDR buffer's integer writes are assumed to keep the value modulo 2^(8·width). The buffer's code is not part of this model.
- The shadowed `addMember` (dcom/core/union.js:37-52) and `call(obj)` (dcom/core/comobjcimpl.js:103-107): later declarations replace them.
- `getMembers` (dcom/core/union.js:92-94): it returns the catalog, which is the `entries` field of the model.
- Session, stub and transport: requests are recorded, never executed. A rejection from `addRef_ReleaseRef` or `getInterface` is not modelled except as the answer parameter.
- The unreferenced-handler operations (dcom/core/comobjcimpl.js:182-198): after the guard, `getUnreferencedHandler` and `unregisterUnreferencedHandler` only forward to the session, which is not part of this model. `registerUnreferencedHandler` takes no parameter and passes `unreferenced` at :191, a name the file never binds (only `Unreferenced` exists, at :4), so as written it throws a ReferenceError after the guard and forwards nothing.
- `replaceMember`, `getIpid`, `getAssociatedSession`, `getInterfaceIdentifier`, `hashCode`, `toString`, the custom-object accessors, `getLengthOfInterfacePointer`, `internal_setDeferred`, `isLocalReference`, `serialVersionUID` and `_init`: field reads or writes and lazy loading, with no behaviour to state.
- async/await and timeouts as elapsed time: `call` is modelled only as which timeout it passes on.
- `ComObjectImpl.Call`: without an interface pointer, line 203 has already attached the session to the caller's call builder when line 204 throws. The model does not hand the caller's builder back, so that change is not visible.
- `ComObjectImpl.QueryInterface`: the stub's `getInterface` is not awaited in the source. The model takes its answer as already settled, so a probe whose query is rejected asynchronously is not modelled.
- `UUID.randomUUID` in `internal_setConnectionInfo`: the new identifier is a parameter.
- `ComObjectImpl.RemoveConnectionInfo`: the value returned by the hash map's `delete` is not modelled. The 'hashmap' package is not part of this model.
- `ComObjectImpl.EqualsIgnoreCase`: case folding covers ASCII letters only, not all of Unicode. IPIDs are hexadecimal.
- Presentation-context reading and writing (dcom/rpc/pdu/altercontextpdu.js:57-63, 77-79): a context is one opaque token, because PresentationContext is not part of this model. The as-written reader reads the counted context tokens and then fails at line 63.
- rpc/pdu/shutdownpdu.js: only its packet type 0x11 is kept, as `AlterContextPdu.SHUTDOWN_TYPE`.
- dcom/index.js: it only re-exports modules.

## Findings

| source | as written | input that shows it | evidently intended | confidence | as-written member | corrected member |
|---|---|---|---|---|---|---|
| dcom/rpc/pdu/altercontextpdu.js:56 | the association group is read with readUnsingedShort, but :73 writes it with writeUnsignedLong | association group 0x10000 reads back as 0, and the context count reads as 1 (`AlterContextPdu.AssociationGroupMisread`) | read it as an unsigned 32-bit value | high; not executed | `AlterContextPdu.ReadFixedFields` | `AlterContextPdu.ReadBody` (round trip: `AlterContextPdu.BodyRoundTrip`) |
| dcom/rpc/pdu/altercontextpdu.js:63 | `contextList(contextList)` calls the local array, which is not a function, so readBody always throws and never stores the list | reading back any written body with an association group below 2^16 (`AlterContextPdu.ReadBodyAsWrittenThrows`) | `this.setContextList(contextList)` | high; not executed | `AlterContextPdu.ReadBodyAsWritten` | `AlterContextPdu.ReadBody`, which also starts the list empty in place of the `[count]` of :58 (round trip: `AlterContextPdu.BodyRoundTrip`) |
| dcom/core/comobjcimpl.js:94 | `new IArray(...)` names a class the file never defines, so release throws a ReferenceError before it sends anything | release of any attached proxy; inside isDispatchSupported, every successful query ends in the catch, so the first probe always answers false (`ComObjectImpl.ProbeAsWrittenAnswersNo`) | build the IPID array as addRef does at :67 | high; not executed | `ComObjectImpl.ReleaseAsWritten`, `ComObjectImpl.IsDispatchSupportedAsWritten` | `ComObjectImpl.Release`, `ComObjectImpl.IsDispatchSupported` (probe: `ComObjectImpl.ProbeReleasesTemporary`) |
| dcom/core/comobjcimpl.js:100 | with :94 read as intended, `this.ptr.getIPID` is still passed without being called, so the session receives a method instead of an IPID | addRef then release on any attached proxy: the IPID's net delta stays +5 (`ComObjectImpl.ReleaseAsWrittenLeaksBatch`) | pass `this.ptr.getIPID()` | high; not executed | `ComObjectImpl.ReleaseMethodReference` | `ComObjectImpl.Release` (balance: `ComObjectImpl.RefCountBalanced`) |
| dcom/core/union.js:137 | `new Union()` passes no discriminant class, so the guard at :22 throws | decode of any valid one-entry union's own encoding (`NdrUnion.DecodeAsWrittenRefuses`) | build the result with the receiver's class | high; not executed | `NdrUnion.DecodeAsWritten` | `NdrUnion.Decode` (round trip: `NdrUnion.DecodeEncode`) |
| dcom/core/union.js:163 | the maximum runs over `keys()`, the discriminants, not the members | an Integer union with a 10-byte array member: length 8, encoding 18 bytes (`NdrUnion.GetLengthUnderestimates`) | take the maximum over the members | medium; not executed | `NdrUnion.GetLength` | `NdrUnion.GetLengthOfMembers` (bound: `NdrUnion.EncodeFitsLength`) |

=== FILE: altercontext.dfy ===
/** The body of the connection-oriented AlterContext PDU
    (dcom/rpc/pdu/altercontextpdu.js): fragment sizes, association group and the
    presentation contexts to negotiate. The body is a sequence of tokens: octets for
    the integer fields, and one opaque token per presentation context, whose own
    wire form is not part of this model. */
module AlterContextPdu {

  import opened Wrappers
  import opened Errors
  import opened Ndr

  /** The packet type of an AlterContext PDU. */
  const ALTER_CONTEXT_TYPE: nat := 0x0e

  /** The packet type of a Shutdown PDU, whose body is empty. */
  const SHUTDOWN_TYPE: nat := 0x11

  /** A fragment size set to this value means "the buffer's capacity". */
  const UNSET_FRAGMENT: int := -1

  /** A presentation-context element (context id, abstract syntax, transfer syntaxes). */
  datatype PresentationContext = PresentationContext(contextId: nat, abstractSyntax: string, transferSyntaxes: seq<string>)

  datatype Token = Octet(b: Byte) | Context(pc: PresentationContext)

  /** The PDU's body fields; a context list never set is None (undefined). */
  datatype Pdu = Pdu(
    maxTransmitFragment: int,
    maxReceiveFragment: int,
    associationGroupId: int,
    contextList: Option<seq<PresentationContext>>)

  /** The constructor's defaults. */
  function Fresh(): (p: Pdu)
    ensures p.maxTransmitFragment == UNSET_FRAGMENT && p.maxReceiveFragment == UNSET_FRAGMENT
    ensures p.associationGroupId == 0 && p.contextList.None?
  {
    Pdu(UNSET_FRAGMENT, UNSET_FRAGMENT, 0, None)
  }

  /** getType: an AlterContext PDU is never taken for a Shutdown. */
  function GetType(p: Pdu): (t: nat)
    ensures t == ALTER_CONTEXT_TYPE && t != SHUTDOWN_TYPE
  {
    ALTER_CONTEXT_TYPE
  }

  function SetMaxTransmitFragment(p: Pdu, v: int): Pdu { p.(maxTransmitFragment := v) }
  function SetMaxReceiveFragment(p: Pdu, v: int): Pdu { p.(maxReceiveFragment := v) }
  function SetAssociationGroupId(p: Pdu, v: int): Pdu { p.(associationGroupId := v) }
  function SetContextList(p: Pdu, l: seq<PresentationContext>): Pdu { p.(contextList := Some(l)) }

  /** Each getter returns what its setter stored last, and no setter touches another field. */
  lemma SettersAreIndependent(p: Pdu, v: int, l: seq<PresentationContext>)
    ensures SetMaxTransmitFragment(p, v).maxTransmitFragment == v
    ensures SetMaxTransmitFragment(p, v).(maxTransmitFragment := p.maxTransmitFragment) == p
    ensures SetMaxReceiveFragment(p, v).maxReceiveFragment == v
    ensures SetMaxReceiveFragment(p, v).(maxReceiveFragment := p.maxReceiveFragment) == p
    ensures SetAssociationGroupId(p, v).associationGroupId == v
    ensures SetAssociationGroupId(p, v).(associationGroupId := p.associationGroupId) == p
    ensures SetContextList(p, l).contextList == Some(l)
    ensures SetContextList(p, l).(contextList := p.contextList) == p
  {
  }

  // ---------------------------------------------------------------------------
  // Writing
  // ---------------------------------------------------------------------------

  function Octets(bs: seq<Byte>): (r: seq<Token>)
    ensures |r| == |bs| && forall i :: 0 <= i < |bs| ==> r[i] == Octet(bs[i])
  {
    seq(|bs|, i requires 0 <= i < |bs| => Octet(bs[i]))
  }

  /** A w-byte unsigned write; the buffer keeps the value modulo 256^w. */
  function WriteUnsigned(v: int, w: nat): (r: seq<Token>)
    ensures |r| == w
  {
    Octets(ToLE(v % Radix(w), w))
  }

  function Contexts(l: seq<PresentationContext>): (r: seq<Token>)
    ensures |r| == |l| && forall i :: 0 <= i < |l| ==> r[i] == Context(l[i])
  {
    seq(|l|, i requires 0 <= i < |l| => Context(l[i]))
  }

  /** The value written for a fragment size: the capacity in place of the unset marker. */
  function FragmentField(v: int, capacity: nat): (r: int)
    ensures v == UNSET_FRAGMENT ==> r == capacity
    ensures v != UNSET_FRAGMENT ==> r == v
  {
    if v == UNSET_FRAGMENT then capacity else v
  }

  /** What writeBody leaves in the buffer, and whether it returned or threw. */
  datatype Written = Written(tokens: seq<Token>, status: Result<(), Error>)

  /** writeBody: u16 max transmit, u16 max receive, u32 association group, u8 context
      count, then each context in list order. `capacity` is the buffer's capacity.
      Without a context list the three integer fields are already in the buffer when
      reading the list's length throws. */
  function WriteBody(p: Pdu, capacity: nat): (r: Written)
    ensures r.status.Err? <==> p.contextList.None?
    ensures r.status.Err? ==> r.status.error == ContextListUnset && |r.tokens| == 8
    ensures |r.tokens| >= 8
    ensures ReadUnsigned(r.tokens, 0, 2) == Ok(FragmentField(p.maxTransmitFragment, capacity) % 0x1_0000)
    ensures ReadUnsigned(r.tokens, 2, 2) == Ok(FragmentField(p.maxReceiveFragment, capacity) % 0x1_0000)
    ensures ReadUnsigned(r.tokens, 4, 4) == Ok(p.associationGroupId % 0x1_0000_0000)
    ensures r.status.Ok? ==>
              var l := p.contextList.value;
              && |r.tokens| == 9 + |l|
              && ReadUnsigned(r.tokens, 8, 1) == Ok(|l| % 0x100)
              && forall i :: 0 <= i < |l| ==> r.tokens[9 + i] == Context(l[i])
  {
    var t := WriteUnsigned(FragmentField(p.maxTransmitFragment, capacity), 2);
    var rc := WriteUnsigned(FragmentField(p.maxReceiveFragment, capacity), 2);
    var g := WriteUnsigned(p.associationGroupId, 4);
    var fixed := t + rc + g;
    RadixValues();
    if p.contextList.None? then
      assert fixed[0..2] == t && fixed[2..4] == rc && fixed[4..8] == g;
      ReadWritten(fixed, 0, FragmentField(p.maxTransmitFragment, capacity), 2);
      ReadWritten(fixed, 2, FragmentField(p.maxReceiveFragment, capacity), 2);
      ReadWritten(fixed, 4, p.associationGroupId, 4);
      Written(fixed, Err(ContextListUnset))
    else
      var l := p.contextList.value;
      var n := WriteUnsigned(|l|, 1);
      var body := fixed + n + Contexts(l);
      assert body[0..2] == t && body[2..4] == rc && body[4..8] == g && body[8..9] == n;
      ReadWritten(body, 0, FragmentField(p.maxTransmitFragment, capacity), 2);
      ReadWritten(body, 2, FragmentField(p.maxReceiveFragment, capacity), 2);
      ReadWritten(body, 4, p.associationGroupId, 4);
      ReadWritten(body, 8, |l|, 1);
      Written(body, Ok(()))
  }

  // ---------------------------------------------------------------------------
  // Reading
  // ---------------------------------------------------------------------------

  /** The bytes of a run of tokens, None if a context token is among them. */
  function BytesOf(ts: seq<Token>): (r: Option<seq<Byte>>)
    ensures r.Some? ==> |r.value| == |ts| && forall i :: 0 <= i < |ts| ==> ts[i] == Octet(r.value[i])
    ensures r.None? ==> exists i :: 0 <= i < |ts| && ts[i].Context?
  {
    if |ts| == 0 then Some([])
    else match ts[0]
      case Context(_) => None
      case Octet(b) =>
        match BytesOf(ts[1..])
        case None => None
        case Some(rest) => Some([b] + rest)
  }

  /** Read a w-byte unsigned little-endian field at pos. */
  function ReadUnsigned(s: seq<Token>, pos: nat, w: nat): (r: Result<nat, Error>)
    ensures r.Ok? ==> r.value < Radix(w)
  {
    if pos + w > |s| then Err(UnmarshalError)
    else
      match BytesOf(s[pos..pos + w])
      case None => Err(UnmarshalError)
      case Some(bs) => Ok(FromLE(bs))
  }

  /** A read over octets returns their little-endian value. */
  lemma ReadOctets(s: seq<Token>, pos: nat, bs: seq<Byte>)
    requires pos + |bs| <= |s| && s[pos..pos + |bs|] == Octets(bs)
    ensures ReadUnsigned(s, pos, |bs|) == Ok(FromLE(bs))
  {
    var got := BytesOf(Octets(bs));
    assert got.Some?;
    assert got.value == bs;
  }

  /** What a w-byte write stores, a w-byte read at the same place returns. */
  lemma ReadWritten(s: seq<Token>, pos: nat, v: int, w: nat)
    requires pos + w <= |s| && s[pos..pos + w] == WriteUnsigned(v, w)
    ensures ReadUnsigned(s, pos, w) == Ok(v % Radix(w))
  {
    ReadOctets(s, pos, ToLE(v % Radix(w), w));
    FromLEToLEFits(v % Radix(w), w);
  }

  /** A read depends only on the tokens it covers. */
  lemma ReadUnsignedLocal(s: seq<Token>, t: seq<Token>, pos: nat, w: nat)
    requires pos + w <= |s| && pos + w <= |t| && s[pos..pos + w] == t[pos..pos + w]
    ensures ReadUnsigned(s, pos, w) == ReadUnsigned(t, pos, w)
  {
  }

  /** The fields readBody reads before its context list. */
  datatype FixedFields = FixedFields(
    maxTransmitFragment: nat,
    maxReceiveFragment: nat,
    associationGroupId: nat,
    count: nat)

  /** readBody as written, up to the context count: the association group is read as
      a u16, so the count is read from the byte after it. */
  function ReadFixedFields(s: seq<Token>): (r: Result<FixedFields, Error>)
    ensures r.Ok? <==> ReadUnsigned(s, 0, 2).Ok? && ReadUnsigned(s, 2, 2).Ok?
                       && ReadUnsigned(s, 4, 2).Ok? && ReadUnsigned(s, 6, 1).Ok?
    ensures r.Ok? ==> r.value == FixedFields(ReadUnsigned(s, 0, 2).value, ReadUnsigned(s, 2, 2).value,
                                             ReadUnsigned(s, 4, 2).value, ReadUnsigned(s, 6, 1).value)
  {
    var maxTransmit :- ReadUnsigned(s, 0, 2);
    var maxReceive :- ReadUnsigned(s, 2, 2);
    var group :- ReadUnsigned(s, 4, 2);
    var count :- ReadUnsigned(s, 6, 1);
    Ok(FixedFields(maxTransmit, maxReceive, group, count))
  }

  /** readBody as written, through line 63: each field read is stored on the PDU as
      soon as it is read, the count is read from the byte after the u16 association
      group, and the contexts that follow it are read; line 63 then calls the local
      array as a function, so the call never returns and the list is never stored.
      Returns the PDU as left behind and the error thrown. */
  function ReadBodyAsWritten(p: Pdu, s: seq<Token>): (r: (Pdu, Error))
    ensures r.0.contextList == p.contextList
    ensures r.1 == NotCallable || r.1 == UnmarshalError
    ensures ReadUnsigned(s, 0, 2).Err? ==> r == (p, UnmarshalError)
    ensures ReadUnsigned(s, 0, 2).Ok? ==> r.0.maxTransmitFragment == ReadUnsigned(s, 0, 2).value
    ensures ReadUnsigned(s, 0, 2).Ok? && ReadUnsigned(s, 2, 2).Ok? ==>
              r.0.maxReceiveFragment == ReadUnsigned(s, 2, 2).value
    ensures ReadUnsigned(s, 0, 2).Ok? && ReadUnsigned(s, 2, 2).Ok? && ReadUnsigned(s, 4, 2).Ok? ==>
              r.0.associationGroupId == ReadUnsigned(s, 4, 2).value
    ensures ReadUnsigned(s, 0, 2).Ok? && ReadUnsigned(s, 2, 2).Err? ==>
              r == (p.(maxTransmitFragment := ReadUnsigned(s, 0, 2).value), UnmarshalError)
    ensures ReadUnsigned(s, 0, 2).Ok? && ReadUnsigned(s, 2, 2).Ok? && ReadUnsigned(s, 4, 2).Err? ==>
              r == (p.(maxTransmitFragment := ReadUnsigned(s, 0, 2).value,
                       maxReceiveFragment := ReadUnsigned(s, 2, 2).value), UnmarshalError)
    ensures ReadFixedFields(s).Ok? ==>
              var f := ReadFixedFields(s).value;
              && r.0 == p.(maxTransmitFragment := f.maxTransmitFragment,
                           maxReceiveFragment := f.maxReceiveFragment,
                           associationGroupId := f.associationGroupId)
              && (r.1 == NotCallable <==> ReadContexts(s, 7, f.count).Ok?)
    ensures ReadFixedFields(s).Err? ==> r.1 == UnmarshalError
  {
    match ReadUnsigned(s, 0, 2)
    case Err(e) => (p, e)
    case Ok(maxTransmit) =>
      var p1 := p.(maxTransmitFragment := maxTransmit);
      match ReadUnsigned(s, 2, 2)
      case Err(e) => (p1, e)
      case Ok(maxReceive) =>
        var p2 := p1.(maxReceiveFragment := maxReceive);
        match ReadUnsigned(s, 4, 2)
        case Err(e) => (p2, e)
        case Ok(group) =>
          var p3 := p2.(associationGroupId := group);
          match ReadUnsigned(s, 6, 1)
          case Err(e) => (p3, e)
          case Ok(count) =>
            match ReadContexts(s, 7, count)
            case Err(e) => (p3, e)
            case Ok(_) => (p3, NotCallable)
  }

  /** The first k bytes of a w-byte write are the k-byte write of the same value. */
  lemma {:induction false} ToLEPrefix(n: nat, w: nat, k: nat)
    requires k <= w
    ensures ToLE(n, w)[..k] == ToLE(n, k)
  {
    if k > 0 {
      ToLEPrefix(n / 0x100, w - 1, k - 1);
      assert ToLE(n, w)[..k] == [n % 0x100] + ToLE(n / 0x100, w - 1)[..k - 1];
    }
  }

  lemma DivDiv(n: nat)
    ensures n / 0x100 / 0x100 == n / 0x1_0000
  {
    var q1, r1 := n / 0x100, n % 0x100;
    var q2, r2 := q1 / 0x100, q1 % 0x100;
    assert n == 0x1_0000 * q2 + (0x100 * r2 + r1);
    ModUnique(n, 0x1_0000, q2, 0x100 * r2 + r1);
  }

  /** readBody as written, on what writeBody wrote: the fragment sizes come back
      (modulo 2^16), but only the low 16 bits of the association group do, and the
      count is the association group's third byte, not the number of contexts. */
  lemma ReadFixedAfterWrite(p: Pdu, capacity: nat)
    requires p.contextList.Some?
    ensures var body := WriteBody(p, capacity).tokens;
            var group := p.associationGroupId % 0x1_0000_0000;
            ReadFixedFields(body) == Ok(FixedFields(
              FragmentField(p.maxTransmitFragment, capacity) % 0x1_0000,
              FragmentField(p.maxReceiveFragment, capacity) % 0x1_0000,
              group % 0x1_0000,
              (group / 0x1_0000) % 0x100))
  {
    RadixValues();
    var body := WriteBody(p, capacity).tokens;
    var group := p.associationGroupId % 0x1_0000_0000;
    var bs := ToLE(group, 4);
    assert body[4..8] == Octets(bs);
    ToLEPrefix(group, 4, 2);
    assert body[4..6] == Octets(bs[..2]);
    ReadOctets(body, 4, bs[..2]);
    FromLEToLE(group, 2);
    assert body[6..7] == Octets([bs[2]]);
    ReadOctets(body, 6, [bs[2]]);
    assert bs[2] == (group / 0x100 / 0x100) % 0x100 by {
      assert bs == [group % 0x100] + ToLE(group / 0x100, 3);
      assert ToLE(group / 0x100, 3) == [group / 0x100 % 0x100] + ToLE(group / 0x100 / 0x100, 2);
    }
    DivDiv(group);
  }

  /** For in-range sizes the first two fields survive; a group of 0x10000 comes back as
      0 with a count of 1, whatever the context list. */
  lemma AssociationGroupMisread(p: Pdu, capacity: nat)
    requires p.contextList.Some? && p.associationGroupId == 0x1_0000
    requires 0 <= FragmentField(p.maxTransmitFragment, capacity) < 0x1_0000
    requires 0 <= FragmentField(p.maxReceiveFragment, capacity) < 0x1_0000
    ensures ReadFixedFields(WriteBody(p, capacity).tokens)
            == Ok(FixedFields(FragmentField(p.maxTransmitFragment, capacity),
                              FragmentField(p.maxReceiveFragment, capacity), 0, 1))
  {
    ReadFixedAfterWrite(p, capacity);
    var mt := FragmentField(p.maxTransmitFragment, capacity);
    var mr := FragmentField(p.maxReceiveFragment, capacity);
    SmallMod(mt, 0x1_0000);
    SmallMod(mr, 0x1_0000);
    SmallMod(0x1_0000, 0x1_0000_0000);
  }

  /** As written, reading back a written body with an association group below 2^16
      reaches line 63 and throws there: the fixed fields are stored, the context list
      is not. */
  lemma ReadBodyAsWrittenThrows(p: Pdu, capacity: nat, q: Pdu)
    requires p.contextList.Some? && 0 <= p.associationGroupId < 0x1_0000
    ensures var r := ReadBodyAsWritten(q, WriteBody(p, capacity).tokens);
            && r.1 == NotCallable
            && r.0.contextList == q.contextList
            && r.0.associationGroupId == p.associationGroupId
  {
    ReadFixedAfterWrite(p, capacity);
    SmallMod(p.associationGroupId, 0x1_0000_0000);
    SmallMod(p.associationGroupId, 0x1_0000);
  }

  // ---------------------------------------------------------------------------
  // The intended reader
  // ---------------------------------------------------------------------------

  /** Read n context tokens starting at pos. */
  function ReadContexts(s: seq<Token>, pos: nat, n: nat): (r: Result<seq<PresentationContext>, Error>)
    ensures r.Ok? ==> |r.value| == n && (n > 0 ==> pos + n <= |s|)
                      && forall i :: 0 <= i < n ==> s[pos + i] == Context(r.value[i])
    ensures r.Err? ==> r.error == UnmarshalError
    decreases n
  {
    if n == 0 then Ok([])
    else if pos >= |s| || !s[pos].Context? then Err(UnmarshalError)
    else
      var rest :- ReadContexts(s, pos + 1, n - 1);
      Ok([s[pos].pc] + rest)
  }

  lemma {:induction false} ReadContextsWritten(s: seq<Token>, pos: nat, l: seq<PresentationContext>)
    requires pos + |l| <= |s|
    requires forall i :: 0 <= i < |l| ==> s[pos + i] == Context(l[i])
    ensures ReadContexts(s, pos, |l|) == Ok(l)
    decreases |l|
  {
    if |l| > 0 {
      assert s[pos] == Context(l[0]);
      forall i | 0 <= i < |l[1..]|
        ensures s[pos + 1 + i] == Context(l[1..][i])
      {
        assert s[pos + (i + 1)] == Context(l[i + 1]);
      }
      ReadContextsWritten(s, pos + 1, l[1..]);
      assert [l[0]] + l[1..] == l;
    }
  }

  /** readBody as intended: the association group read as the u32 it was written as,
      then the counted contexts. Returns the fields and the tokens consumed. */
  function ReadBody(s: seq<Token>): (r: Result<(Pdu, nat), Error>)
    ensures r.Ok? ==> r.value.0.contextList.Some? && r.value.1 == 9 + |r.value.0.contextList.value| <= |s|
  {
    var maxTransmit :- ReadUnsigned(s, 0, 2);
    var maxReceive :- ReadUnsigned(s, 2, 2);
    var group :- ReadUnsigned(s, 4, 4);
    var count :- ReadUnsigned(s, 8, 1);
    var l :- ReadContexts(s, 9, count);
    Ok((Pdu(maxTransmit, maxReceive, group, Some(l)), 9 + count))
  }

  /** The four fixed fields of a body read the same whatever follows the body. */
  lemma ReadFixedPrefix(body: seq<Token>, rest: seq<Token>)
    requires |body| >= 9
    ensures ReadUnsigned(body + rest, 0, 2) == ReadUnsigned(body, 0, 2)
    ensures ReadUnsigned(body + rest, 2, 2) == ReadUnsigned(body, 2, 2)
    ensures ReadUnsigned(body + rest, 4, 4) == ReadUnsigned(body, 4, 4)
    ensures ReadUnsigned(body + rest, 8, 1) == ReadUnsigned(body, 8, 1)
  {
    var s := body + rest;
    assert s[0..9] == body[0..9];
    ReadUnsignedLocal(s, body, 0, 2);
    ReadUnsignedLocal(s, body, 2, 2);
    ReadUnsignedLocal(s, body, 4, 4);
    ReadUnsignedLocal(s, body, 8, 1);
  }

  /** Reading back a written body recovers every field, the unset fragment sizes as
      the capacity they were written as, whatever follows the body. */
  lemma BodyRoundTrip(p: Pdu, capacity: nat, rest: seq<Token>)
    requires p.contextList.Some? && |p.contextList.value| < 0x100
    requires 0 <= FragmentField(p.maxTransmitFragment, capacity) < 0x1_0000
    requires 0 <= FragmentField(p.maxReceiveFragment, capacity) < 0x1_0000
    requires 0 <= p.associationGroupId < 0x1_0000_0000
    ensures var s := WriteBody(p, capacity).tokens + rest;
            ReadBody(s) == Ok((p.(maxTransmitFragment := FragmentField(p.maxTransmitFragment, capacity),
                                  maxReceiveFragment := FragmentField(p.maxReceiveFragment, capacity)),
                               9 + |p.contextList.value|))
  {
    var l := p.contextList.value;
    var w := WriteBody(p, capacity);
    var body := w.tokens;
    var s := body + rest;
    var mt := FragmentField(p.maxTransmitFragment, capacity);
    var mr := FragmentField(p.maxReceiveFragment, capacity);
    assert w.status.Ok?;
    ReadFixedPrefix(body, rest);
    SmallMod(mt, 0x1_0000);
    SmallMod(mr, 0x1_0000);
    SmallMod(p.associationGroupId, 0x1_0000_0000);
    SmallMod(|l|, 0x100);
    ReadContextsAfter(body, rest, l);
    ReadBodyFields(s, mt, mr, p.associationGroupId, l);
  }

  /** Contexts written from position 9 of a body read back whatever follows the body. */
  lemma ReadContextsAfter(body: seq<Token>, rest: seq<Token>, l: seq<PresentationContext>)
    requires |body| == 9 + |l|
    requires forall i :: 0 <= i < |l| ==> body[9 + i] == Context(l[i])
    ensures ReadContexts(body + rest, 9, |l|) == Ok(l)
  {
    var s := body + rest;
    forall i | 0 <= i < |l|
      ensures s[9 + i] == Context(l[i])
    {
      assert s[9 + i] == body[9 + i];
    }
    ReadContextsWritten(s, 9, l);
  }

  /** ReadBody assembles the PDU from its four field reads and the counted contexts. */
  lemma ReadBodyFields(s: seq<Token>, mt: nat, mr: nat, g: nat, l: seq<PresentationContext>)
    requires ReadUnsigned(s, 0, 2) == Ok(mt) && ReadUnsigned(s, 2, 2) == Ok(mr)
    requires ReadUnsigned(s, 4, 4) == Ok(g) && ReadUnsigned(s, 8, 1) == Ok(|l|)
    requires ReadContexts(s, 9, |l|) == Ok(l)
    ensures ReadBody(s) == Ok((Pdu(mt, mr, g, Some(l)), 9 + |l|))
  {
  }
}

=== FILE: comobject.dfy ===
/** The client-side proxy of a remote COM object (dcom/core/comobjcimpl.js), as a
    record and a set of record-to-step functions. The session and its stub are not
    modelled: what the proxy hands them is recorded as an emitted request, and what
    they answer is a parameter of the operation. */
module ComObjectImpl {

  import opened Wrappers
  import opened Errors

  /** The interface identifier of IDispatch, which the dual-interface probe asks for. */
  const IID_IDISPATCH: string := "00020400-0000-0000-c000-000000000046"

  /** The number of references one addRef asks for, and one release gives back. */
  const REF_BATCH: int := 5

  type SessionId = nat

  /** An opaque handle on a client object (a connection point). */
  type ObjectRef = nat

  datatype InterfacePointer = InterfacePointer(ipid: string, iid: string, length: nat)

  datatype ConnectionInfo = ConnectionInfo(connectionPoint: ObjectRef, cookie: int)

  /** The proxy's fields; None stands for a null session, pointer or map. */
  datatype Proxy = Proxy(
    session: Option<SessionId>,
    ptr: Option<InterfacePointer>,
    isLocal: bool,
    timeout: int,
    isDual: bool,
    dualInfo: bool,
    connectionPointInfo: Option<map<string, ConnectionInfo>>)

  // ---------------------------------------------------------------------------
  // What the proxy hands to the session
  // ---------------------------------------------------------------------------

  datatype InParam = ShortParam(s: int) | IntParam(i: int) | UuidArrayParam(ids: seq<string>)

  datatype OutParam = IntegerOut

  /** A CallBuilder as the proxy fills it in. */
  datatype CallBuilder = CallBuilder(
    session: Option<SessionId>,
    parentIpid: string,
    opnum: nat,
    inParams: seq<InParam>,
    outParams: seq<OutParam>)

  /** The object identifier handed to addRef_ReleaseRef: an IPID, or a reference to
      the getIPID method itself where the source omits the call. */
  datatype RefTarget = ByIpid(ipid: string) | ByMethodReference

  datatype Request =
      // session.addRef_ReleaseRef(target, call, delta)
    | RefCount(target: RefTarget, call: CallBuilder, delta: int)
      // session.getStub().getInterface(iid, ipid)
    | GetInterface(iid: string, ipid: string)
      // session.getStub().call(call, iid[, timeout])
    | StubCall(call: CallBuilder, iid: string, timeout: Option<int>)

  datatype Reply =
    | Done
    | Flag(b: bool)
    | Pointer(ip: InterfacePointer)
    | Identifier(id: string)
    | Info(info: Option<ConnectionInfo>)
    | Timeout(t: int)
    | Outputs(values: seq<int>)

  /** One operation's effect: the proxy afterwards, the requests it emitted in order,
      and what it returned or threw. */
  datatype Step = Step(proxy: Proxy, emitted: seq<Request>, result: Result<Reply, Error>)

  // ---------------------------------------------------------------------------
  // Construction and the guard
  // ---------------------------------------------------------------------------

  /** new ComObjectImpl(session, ptr, isLocal); an omitted isLocal means false. */
  function Create(session: Option<SessionId>, ptr: Option<InterfacePointer>, isLocal: Option<bool>): (p: Proxy)
    ensures p.session == session && p.ptr == ptr
    ensures p.isLocal <==> isLocal == Some(true)
    ensures !p.isDual && !p.dualInfo && p.timeout == 0 && p.connectionPointInfo.None?
  {
    Proxy(session, ptr, if isLocal.None? then false else isLocal.value, 0, false, false, None)
  }

  /** checkLocal: a missing session is reported before a local-only reference. */
  function CheckLocal(p: Proxy): (r: Result<(), Error>)
    ensures r.Ok? <==> p.session.Some? && !p.isLocal
    ensures p.session.None? ==> r == Err(SessionNotAttached)
    ensures p.session.Some? && p.isLocal ==> r == Err(NotImplemented)
  {
    if p.session.None? then Err(SessionNotAttached)
    else if p.isLocal then Err(NotImplemented)
    else Ok(())
  }

  /** The step of an operation whose guard failed: nothing sent, nothing changed. */
  function Refused(p: Proxy): Step
    requires CheckLocal(p).Err?
  {
    Step(p, [], Err(CheckLocal(p).error))
  }

  // ---------------------------------------------------------------------------
  // Remote operations
  // ---------------------------------------------------------------------------

  /** The in-parameters of RemAddRef/RemRelease for one IPID: one interface reference,
      the IPID array, the batch of references, and the reserved zero. */
  function RefCountParams(ipid: string): seq<InParam> {
    [ShortParam(1), UuidArrayParam([ipid]), IntParam(REF_BATCH), IntParam(0)]
  }

  /** queryInterface(iid): asks the stub for the interface; `answer` is its reply. */
  function QueryInterface(p: Proxy, iid: string, answer: Result<InterfacePointer, Error>): (r: Step)
    ensures CheckLocal(p).Err? ==> r == Refused(p)
    ensures r.proxy == p
    ensures CheckLocal(p).Ok? && p.ptr.Some? ==>
              && r.emitted == [GetInterface(iid, p.ptr.value.ipid)]
              && (r.result.Ok? <==> answer.Ok?)
              && (answer.Ok? ==> r.result.value == Pointer(answer.value))
              && (answer.Err? ==> r.result.error == answer.error)
  {
    if CheckLocal(p).Err? then Refused(p)
    else if p.ptr.None? then Step(p, [], Err(InterfacePointerUnset))
    else
      var sent := [GetInterface(iid, p.ptr.value.ipid)];
      match answer
      case Ok(ip) => Step(p, sent, Ok(Pointer(ip)))
      case Err(e) => Step(p, sent, Err(e))
  }

  /** addRef: one RemAddRef call (opnum 1) for REF_BATCH references; `results` are
      the call's out-parameter values, and a non-zero result at index 1 is an error. */
  function AddRef(p: Proxy, results: seq<int>): (r: Step)
    ensures CheckLocal(p).Err? ==> r == Refused(p)
    ensures r.proxy == p
    ensures CheckLocal(p).Ok? && p.ptr.Some? ==>
              var ipid := p.ptr.value.ipid;
              && |r.emitted| == 1
              && r.emitted[0].RefCount?
              && r.emitted[0].target == ByIpid(ipid)
              && r.emitted[0].delta == REF_BATCH
              && r.emitted[0].call.session.None?
              && r.emitted[0].call.opnum == 1
              && r.emitted[0].call.parentIpid == ipid
              && r.emitted[0].call.inParams == RefCountParams(ipid)
              && r.emitted[0].call.outParams == [IntegerOut, IntegerOut]
              && (r.result.Ok? <==> |results| > 1 && results[1] == 0)
  {
    if CheckLocal(p).Err? then Refused(p)
    else if p.ptr.None? then Step(p, [], Err(InterfacePointerUnset))
    else
      var ipid := p.ptr.value.ipid;
      var call := CallBuilder(None, ipid, 1, RefCountParams(ipid), [IntegerOut, IntegerOut]);
      var sent := [RefCount(ByIpid(ipid), call, REF_BATCH)];
      if |results| < 2 then Step(p, sent, Err(RemoteException(None)))
      else if results[1] != 0 then Step(p, sent, Err(RemoteException(Some(results[1]))))
      else Step(p, sent, Ok(Done))
  }

  /** The RemRelease call (opnum 2) release builds; it declares no out-parameters. */
  function ReleaseCall(ipid: string): CallBuilder {
    CallBuilder(None, ipid, 2, RefCountParams(ipid), [])
  }

  /** release, with the IPID passed to the session as intended. */
  function Release(p: Proxy): (r: Step)
    ensures CheckLocal(p).Err? ==> r == Refused(p)
    ensures r.proxy == p
    ensures CheckLocal(p).Ok? && p.ptr.Some? ==>
              var ipid := p.ptr.value.ipid;
              && |r.emitted| == 1
              && r.emitted[0].RefCount?
              && r.emitted[0].target == ByIpid(ipid)
              && r.emitted[0].delta == -REF_BATCH
              && r.emitted[0].call.opnum == 2
              && r.emitted[0].call.session.None?
              && r.emitted[0].call.parentIpid == ipid
              && r.emitted[0].call.inParams == RefCountParams(ipid)
              && r.emitted[0].call.outParams == []
              && r.result == Ok(Done)
  {
    if CheckLocal(p).Err? then Refused(p)
    else if p.ptr.None? then Step(p, [], Err(InterfacePointerUnset))
    else
      var ipid := p.ptr.value.ipid;
      Step(p, [RefCount(ByIpid(ipid), ReleaseCall(ipid), -REF_BATCH)], Ok(Done))
  }

  /** release as written: line 94 builds an `IArray`, a name the file never defines,
      so every attached release throws a ReferenceError after the guard and before
      anything reaches the session. A missing pointer fails earlier, at line 89. */
  function ReleaseAsWritten(p: Proxy): (r: Step)
    ensures CheckLocal(p).Err? ==> r == Refused(p)
    ensures r.proxy == p && r.emitted == [] && r.result.Err?
    ensures CheckLocal(p).Ok? && p.ptr.Some? ==> r.result == Err(UndefinedName("IArray"))
  {
    if CheckLocal(p).Err? then Refused(p)
    else if p.ptr.None? then Step(p, [], Err(InterfacePointerUnset))
    else Step(p, [], Err(UndefinedName("IArray")))
  }

  /** release with line 94 read as intended but line 100 as written: the session
      receives `this.ptr.getIPID`, the method, as the object identifier instead of the
      IPID it returns. */
  function ReleaseMethodReference(p: Proxy): (r: Step)
    ensures CheckLocal(p).Err? ==> r == Refused(p)
    ensures CheckLocal(p).Ok? && p.ptr.Some? ==>
              && |r.emitted| == 1
              && r.emitted[0].RefCount?
              && r.emitted[0].target == ByMethodReference
              && r.emitted[0].call == Release(p).emitted[0].call
              && r.emitted[0].delta == Release(p).emitted[0].delta
  {
    if CheckLocal(p).Err? then Refused(p)
    else if p.ptr.None? then Step(p, [], Err(InterfacePointerUnset))
    else
      var ipid := p.ptr.value.ipid;
      Step(p, [RefCount(ByMethodReference, ReleaseCall(ipid), -REF_BATCH)], Ok(Done))
  }

  /** The net change in references a log of requests asks the session for, on one IPID. */
  function NetDelta(log: seq<Request>, ipid: string): int {
    if |log| == 0 then 0
    else
      (if log[0].RefCount? && log[0].target == ByIpid(ipid) then log[0].delta else 0)
      + NetDelta(log[1..], ipid)
  }

  lemma {:induction false} NetDeltaAppend(a: seq<Request>, b: seq<Request>, ipid: string)
    ensures NetDelta(a + b, ipid) == NetDelta(a, ipid) + NetDelta(b, ipid)
  {
    if |a| > 0 {
      assert (a + b)[1..] == a[1..] + b;
      NetDeltaAppend(a[1..], b, ipid);
    } else {
      assert a + b == b;
    }
  }

  /** An addRef followed by a release leaves the object's reference count where it was. */
  lemma RefCountBalanced(p: Proxy, results: seq<int>)
    requires CheckLocal(p).Ok? && p.ptr.Some?
    ensures NetDelta(AddRef(p, results).emitted + Release(p).emitted, p.ptr.value.ipid) == 0
  {
    var ipid := p.ptr.value.ipid;
    NetDeltaAppend(AddRef(p, results).emitted, Release(p).emitted, ipid);
    assert NetDelta(AddRef(p, results).emitted, ipid) == REF_BATCH;
    assert NetDelta(Release(p).emitted, ipid) == -REF_BATCH;
  }

  /** With release as written the session is never told to give back the batch that
      addRef took for the IPID: line 94 throws before anything is sent, and with line
      94 repaired, line 100 still names the method instead of the IPID. */
  lemma ReleaseAsWrittenLeaksBatch(p: Proxy, results: seq<int>)
    requires CheckLocal(p).Ok? && p.ptr.Some?
    ensures NetDelta(AddRef(p, results).emitted + ReleaseAsWritten(p).emitted, p.ptr.value.ipid) == REF_BATCH
    ensures NetDelta(AddRef(p, results).emitted + ReleaseMethodReference(p).emitted, p.ptr.value.ipid) == REF_BATCH
  {
    var ipid := p.ptr.value.ipid;
    NetDeltaAppend(AddRef(p, results).emitted, ReleaseAsWritten(p).emitted, ipid);
    NetDeltaAppend(AddRef(p, results).emitted, ReleaseMethodReference(p).emitted, ipid);
    assert NetDelta(AddRef(p, results).emitted, ipid) == REF_BATCH;
    assert NetDelta(ReleaseMethodReference(p).emitted, ipid) == 0;
  }

  /** call(obj, socketTimetout), the declaration that takes effect: attaches the
      session and IPID to the call and hands it to the stub with the proxy's IID.
      `socketTimeout` is None when the caller leaves it out (undefined): undefined is
      not 0, so it is forwarded as no timeout, and the proxy's own timeout is never
      consulted. `answer` is the stub's reply. */
  function Call(p: Proxy, call: CallBuilder, socketTimeout: Option<int>, answer: Result<seq<int>, Error>): (r: Step)
    ensures CheckLocal(p).Err? ==> r == Refused(p)
    ensures r.proxy == p
    ensures CheckLocal(p).Ok? && p.ptr.None? ==> r.emitted == [] && r.result == Err(InterfacePointerUnset)
    ensures CheckLocal(p).Ok? && p.ptr.Some? ==>
              && |r.emitted| == 1
              && r.emitted[0].StubCall?
              && r.emitted[0].call.(session := call.session, parentIpid := call.parentIpid) == call
              && r.emitted[0].call.session == p.session
              && r.emitted[0].call.parentIpid == p.ptr.value.ipid
              && r.emitted[0].iid == p.ptr.value.iid
              && (r.emitted[0].timeout.Some? <==> socketTimeout.Some? && socketTimeout.value != 0)
              && (r.emitted[0].timeout.Some? ==> r.emitted[0].timeout == socketTimeout)
              && (answer.Ok? ==> r.result == Ok(Outputs(answer.value)))
              && (answer.Err? ==> r.result == Err(answer.error))
  {
    if CheckLocal(p).Err? then Refused(p)
    else if p.ptr.None? then Step(p, [], Err(InterfacePointerUnset))
    else
      var attached := call.(session := p.session, parentIpid := p.ptr.value.ipid);
      var timeout := if socketTimeout == Some(0) then None else socketTimeout;
      var sent := [StubCall(attached, p.ptr.value.iid, timeout)];
      match answer
      case Ok(values) => Step(p, sent, Ok(Outputs(values)))
      case Err(e) => Step(p, sent, Err(e))
  }

  /** The one-argument call(obj) reaches the declaration above with its timeout
      undefined, so what it sends does not depend on the proxy's timeout, and the
      stub is never given one. */
  lemma OneArgumentCallIgnoresTimeout(p: Proxy, t: int, call: CallBuilder, answer: Result<seq<int>, Error>)
    requires CheckLocal(p).Ok? && p.ptr.Some?
    ensures Call(p.(timeout := t), call, None, answer).emitted == Call(p, call, None, answer).emitted
    ensures Call(p, call, None, answer).emitted[0].timeout.None?
  {
  }

  /** internal_getInterfacePointer: the proxy's own pointer, else the stub's server
      interface pointer (`serverPointer`); no guard, but a null session cannot be asked. */
  function InternalGetInterfacePointer(p: Proxy, serverPointer: InterfacePointer): (r: Result<InterfacePointer, Error>)
    ensures p.ptr.Some? ==> r == Ok(p.ptr.value)
    ensures p.ptr.None? && p.session.Some? ==> r == Ok(serverPointer)
    ensures r.Err? <==> p.ptr.None? && p.session.None?
  {
    if p.ptr.Some? then Ok(p.ptr.value)
    else if p.session.None? then Err(SessionUnset)
    else Ok(serverPointer)
  }

  // ---------------------------------------------------------------------------
  // The dual-interface probe
  // ---------------------------------------------------------------------------

  /** setIsDual: records the answer and that the question has been answered. */
  function SetIsDual(p: Proxy, isDual: bool): (r: Proxy)
    ensures r.dualInfo && r.isDual == isDual
    ensures r.(dualInfo := p.dualInfo, isDual := p.isDual) == p
  {
    p.(dualInfo := true, isDual := isDual)
  }

  /** isDispatchSupported with release read as intended: while no answer is cached,
      asks for IDispatch (`probe` is the stub's reply), releases the proxy obtained,
      and caches yes; any failure on the way, in the query or in the release, caches no. */
  function IsDispatchSupported(p: Proxy, probe: Result<InterfacePointer, Error>): (r: Step)
    ensures CheckLocal(p).Err? ==> r == Refused(p)
    ensures CheckLocal(p).Ok? ==> r.proxy.dualInfo && r.result == Ok(Flag(r.proxy.isDual))
    ensures CheckLocal(p).Ok? && p.dualInfo ==> r == Step(p, [], Ok(Flag(p.isDual)))
    ensures CheckLocal(p).Ok? && !p.dualInfo && probe.Err? ==> !r.proxy.isDual
    ensures r.proxy == p || r.proxy == SetIsDual(p, r.proxy.isDual)
  {
    if CheckLocal(p).Err? then Refused(p)
    else if p.dualInfo then Step(p, [], Ok(Flag(p.isDual)))
    else
      var q := QueryInterface(p, IID_IDISPATCH, probe);
      if q.result.Err? then
        Step(SetIsDual(p, false), q.emitted, Ok(Flag(false)))
      else
        var temporary := Create(p.session, Some(q.result.value.ip), None);
        var rel := Release(temporary);
        if rel.result.Err? then Step(SetIsDual(p, false), q.emitted + rel.emitted, Ok(Flag(false)))
        else Step(SetIsDual(p, true), q.emitted + rel.emitted, Ok(Flag(true)))
  }

  /** isDispatchSupported as written: the temporary's release throws at line 94, inside
      the try, so a successful query also ends in the catch. */
  function IsDispatchSupportedAsWritten(p: Proxy, probe: Result<InterfacePointer, Error>): (r: Step)
    ensures CheckLocal(p).Err? ==> r == Refused(p)
    ensures CheckLocal(p).Ok? ==> r.proxy.dualInfo && r.result == Ok(Flag(r.proxy.isDual))
    ensures CheckLocal(p).Ok? && p.dualInfo ==> r == Step(p, [], Ok(Flag(p.isDual)))
    ensures r.proxy == p || r.proxy == SetIsDual(p, r.proxy.isDual)
  {
    if CheckLocal(p).Err? then Refused(p)
    else if p.dualInfo then Step(p, [], Ok(Flag(p.isDual)))
    else
      var q := QueryInterface(p, IID_IDISPATCH, probe);
      if q.result.Err? then
        Step(SetIsDual(p, false), q.emitted, Ok(Flag(false)))
      else
        var temporary := Create(p.session, Some(q.result.value.ip), None);
        var rel := ReleaseAsWritten(temporary);
        if rel.result.Err? then Step(SetIsDual(p, false), q.emitted + rel.emitted, Ok(Flag(false)))
        else Step(SetIsDual(p, true), q.emitted + rel.emitted, Ok(Flag(true)))
  }

  /** As written, the first probe of an attached proxy answers no and caches no, whatever
      the stub answers, and it gives back no references. */
  lemma ProbeAsWrittenAnswersNo(p: Proxy, probe: Result<InterfacePointer, Error>, ipid: string)
    requires CheckLocal(p).Ok? && !p.dualInfo
    ensures var r := IsDispatchSupportedAsWritten(p, probe);
            && r.result == Ok(Flag(false))
            && r.proxy == SetIsDual(p, false)
            && NetDelta(r.emitted, ipid) == 0
  {
  }

  /** The probe runs at most once: asking again sends nothing and returns the cached
      answer, whatever the stub would say now. */
  lemma ProbeIsCached(p: Proxy, first: Result<InterfacePointer, Error>, later: Result<InterfacePointer, Error>)
    requires CheckLocal(p).Ok?
    ensures var r1 := IsDispatchSupported(p, first);
            IsDispatchSupported(r1.proxy, later) == Step(r1.proxy, [], r1.result)
  {
  }

  /** With release as intended, a successful probe sends the IDispatch query and then
      gives back the batch of references the temporary proxy holds. */
  lemma ProbeReleasesTemporary(p: Proxy, ip: InterfacePointer)
    requires CheckLocal(p).Ok? && !p.dualInfo && p.ptr.Some?
    ensures var r := IsDispatchSupported(p, Ok(ip));
            && r.result == Ok(Flag(true))
            && |r.emitted| == 2
            && r.emitted[0] == GetInterface(IID_IDISPATCH, p.ptr.value.ipid)
            && NetDelta(r.emitted, ip.ipid) == -REF_BATCH
  {
    var r := IsDispatchSupported(p, Ok(ip));
    assert r.emitted[1..] == [r.emitted[1]];
    assert NetDelta([r.emitted[1]], ip.ipid) == -REF_BATCH by {
      assert [r.emitted[1]][1..] == [];
    }
  }

  // ---------------------------------------------------------------------------
  // Connection-point bookkeeping
  // ---------------------------------------------------------------------------

  /** internal_setConnectionInfo: stores the pair under a new identifier and returns it;
      the identifier (a random UUID in the source) is the parameter `uniqueId`. */
  function SetConnectionInfo(p: Proxy, connectionPoint: ObjectRef, cookie: int, uniqueId: string): (r: Step)
    ensures CheckLocal(p).Err? ==> r == Refused(p)
    ensures CheckLocal(p).Ok? ==>
              && r.emitted == []
              && r.result == Ok(Identifier(uniqueId))
              && r.proxy.connectionPointInfo.Some?
              && uniqueId in r.proxy.connectionPointInfo.value
              && r.proxy.connectionPointInfo.value[uniqueId] == ConnectionInfo(connectionPoint, cookie)
              && r.proxy.(connectionPointInfo := p.connectionPointInfo) == p
  {
    if CheckLocal(p).Err? then Refused(p)
    else
      var m := if p.connectionPointInfo.None? then map[] else p.connectionPointInfo.value;
      var info := ConnectionInfo(connectionPoint, cookie);
      Step(p.(connectionPointInfo := Some(m[uniqueId := info])), [], Ok(Identifier(uniqueId)))
  }

  /** internal_getConnectionInfo: the stored pair, None when the identifier is unknown;
      before any set the map is null and the lookup throws. */
  function GetConnectionInfo(p: Proxy, id: string): (r: Step)
    ensures CheckLocal(p).Err? ==> r == Refused(p)
    ensures r.proxy == p && r.emitted == []
    ensures CheckLocal(p).Ok? && p.connectionPointInfo.None? ==> r.result == Err(ConnectionInfoUnset)
    ensures CheckLocal(p).Ok? && p.connectionPointInfo.Some? ==>
              r.result.Ok? && r.result.value.Info?
              && (r.result.value.info.Some? <==> id in p.connectionPointInfo.value)
  {
    if CheckLocal(p).Err? then Refused(p)
    else if p.connectionPointInfo.None? then Step(p, [], Err(ConnectionInfoUnset))
    else
      var m := p.connectionPointInfo.value;
      Step(p, [], Ok(Info(if id in m then Some(m[id]) else None)))
  }

  /** internal_removeConnectionInfo: drops one identifier. */
  function RemoveConnectionInfo(p: Proxy, id: string): (r: Step)
    ensures CheckLocal(p).Err? ==> r == Refused(p)
    ensures r.emitted == []
    ensures CheckLocal(p).Ok? && p.connectionPointInfo.None? ==> r == Step(p, [], Err(ConnectionInfoUnset))
    ensures CheckLocal(p).Ok? && p.connectionPointInfo.Some? ==>
              && r.result == Ok(Done)
              && r.proxy.connectionPointInfo.Some?
              && r.proxy.connectionPointInfo.value.Keys == p.connectionPointInfo.value.Keys - {id}
              && r.proxy.(connectionPointInfo := p.connectionPointInfo) == p
  {
    if CheckLocal(p).Err? then Refused(p)
    else if p.connectionPointInfo.None? then Step(p, [], Err(ConnectionInfoUnset))
    else Step(p.(connectionPointInfo := Some(p.connectionPointInfo.value - {id})), [], Ok(Done))
  }

  /** What a set stores, a get returns. */
  lemma SetThenGet(p: Proxy, cp: ObjectRef, cookie: int, u: string)
    requires CheckLocal(p).Ok?
    ensures GetConnectionInfo(SetConnectionInfo(p, cp, cookie, u).proxy, u).result
            == Ok(Info(Some(ConnectionInfo(cp, cookie))))
  {
  }

  /** A set under one identifier leaves what the others return unchanged. */
  lemma SetKeepsOthers(p: Proxy, cp: ObjectRef, cookie: int, u: string, id: string)
    requires CheckLocal(p).Ok? && p.connectionPointInfo.Some? && id != u
    ensures GetConnectionInfo(SetConnectionInfo(p, cp, cookie, u).proxy, id)
            == GetConnectionInfo(p, id).(proxy := SetConnectionInfo(p, cp, cookie, u).proxy)
  {
  }

  /** After a remove the identifier is unknown, and the others still answer as before. */
  lemma RemoveThenGet(p: Proxy, u: string, id: string)
    requires CheckLocal(p).Ok? && p.connectionPointInfo.Some?
    ensures GetConnectionInfo(RemoveConnectionInfo(p, u).proxy, u).result == Ok(Info(None))
    ensures id != u ==> GetConnectionInfo(RemoveConnectionInfo(p, u).proxy, id).result
                        == GetConnectionInfo(p, id).result
  {
  }

  // ---------------------------------------------------------------------------
  // Timeout
  // ---------------------------------------------------------------------------

  /** getInstanceLevelSocketTimetout. */
  function GetTimeout(p: Proxy): (r: Step)
    ensures CheckLocal(p).Err? ==> r == Refused(p)
    ensures CheckLocal(p).Ok? ==> r == Step(p, [], Ok(Timeout(p.timeout)))
  {
    if CheckLocal(p).Err? then Refused(p) else Step(p, [], Ok(Timeout(p.timeout)))
  }

  /** setInstanceLevelSocketTimeout. */
  function SetTimeout(p: Proxy, timeout: int): (r: Step)
    ensures CheckLocal(p).Err? ==> r == Refused(p)
    ensures CheckLocal(p).Ok? ==> r.emitted == [] && r.proxy.(timeout := p.timeout) == p
  {
    if CheckLocal(p).Err? then Refused(p) else Step(p.(timeout := timeout), [], Ok(Done))
  }

  lemma SetThenGetTimeout(p: Proxy, t: int)
    requires CheckLocal(p).Ok?
    ensures GetTimeout(SetTimeout(p, t).proxy).result == Ok(Timeout(t))
  {
  }

  // ---------------------------------------------------------------------------
  // Equality
  // ---------------------------------------------------------------------------

  /** ASCII case folding; IPIDs are hexadecimal strings. */
  function ToLower(c: char): char {
    if 'A' <= c <= 'Z' then (c as int + 32) as char else c
  }

  function Fold(s: string): (r: string)
    ensures |r| == |s|
    ensures forall i :: 0 <= i < |s| ==> r[i] == ToLower(s[i])
  {
    if |s| == 0 then [] else [ToLower(s[0])] + Fold(s[1..])
  }

  /** equalsIgnoreCase, character by character. */
  predicate EqualsIgnoreCase(a: string, b: string) {
    |a| == |b| && forall i :: 0 <= i < |a| ==> ToLower(a[i]) == ToLower(b[i])
  }

  /** Comparing ignoring case is comparing the case-folded strings. */
  lemma IgnoreCaseIsFoldedEquality(a: string, b: string)
    ensures EqualsIgnoreCase(a, b) <==> Fold(a) == Fold(b)
  {
    if Fold(a) == Fold(b) {
      assert |a| == |b|;
      forall i | 0 <= i < |a|
        ensures ToLower(a[i]) == ToLower(b[i])
      {
        assert Fold(a)[i] == Fold(b)[i];
      }
    }
  }

  /** The argument of equals: another ComObjectImpl, or any other value. */
  datatype Candidate = ComObject(proxy: Proxy) | OtherValue

  /** equals: false for anything but a proxy, else case-insensitive IPID equality;
      a proxy without an interface pointer cannot be asked for its IPID. */
  function Equals(p: Proxy, other: Candidate): (r: Result<bool, Error>)
    ensures other.OtherValue? ==> r == Ok(false)
    ensures other.ComObject? && p.ptr.Some? && other.proxy.ptr.Some? ==>
              r == Ok(EqualsIgnoreCase(p.ptr.value.ipid, other.proxy.ptr.value.ipid))
    ensures r.Err? <==> other.ComObject? && (p.ptr.None? || other.proxy.ptr.None?)
  {
    match other
    case OtherValue => Ok(false)
    case ComObject(q) =>
      if p.ptr.None? || q.ptr.None? then Err(InterfacePointerUnset)
      else Ok(EqualsIgnoreCase(p.ptr.value.ipid, q.ptr.value.ipid))
  }

  lemma EqualsReflexive(p: Proxy)
    requires p.ptr.Some?
    ensures Equals(p, ComObject(p)) == Ok(true)
  {
  }

  lemma EqualsSymmetric(p: Proxy, q: Proxy)
    requires p.ptr.Some? && q.ptr.Some?
    ensures Equals(p, ComObject(q)) == Equals(q, ComObject(p))
  {
  }

  lemma EqualsTransitive(p: Proxy, q: Proxy, s: Proxy)
    requires Equals(p, ComObject(q)) == Ok(true) && Equals(q, ComObject(s)) == Ok(true)
    ensures Equals(p, ComObject(s)) == Ok(true)
  {
  }

  // ---------------------------------------------------------------------------
  // The proxy as a state machine
  // ---------------------------------------------------------------------------

  /** Every remote operation, with the answers its collaborators give as parameters. */
  datatype Operation =
    | QueryInterfaceOp(iid: string, answer: Result<InterfacePointer, Error>)
    | AddRefOp(results: seq<int>)
    | ReleaseOp
    | CallOp(call: CallBuilder, socketTimeout: Option<int>, reply: Result<seq<int>, Error>)
    | IsDispatchSupportedOp(probe: Result<InterfacePointer, Error>)
    | SetConnectionInfoOp(connectionPoint: ObjectRef, cookie: int, uniqueId: string)
    | GetConnectionInfoOp(id: string)
    | RemoveConnectionInfoOp(id: string)
    | GetTimeoutOp
    | SetTimeoutOp(timeout: int)

  function Apply(p: Proxy, op: Operation): Step {
    match op
    case QueryInterfaceOp(iid, answer) => QueryInterface(p, iid, answer)
    case AddRefOp(results) => AddRef(p, results)
    case ReleaseOp => Release(p)
    case CallOp(call, t, reply) => Call(p, call, t, reply)
    case IsDispatchSupportedOp(probe) => IsDispatchSupported(p, probe)
    case SetConnectionInfoOp(cp, cookie, u) => SetConnectionInfo(p, cp, cookie, u)
    case GetConnectionInfoOp(id) => GetConnectionInfo(p, id)
    case RemoveConnectionInfoOp(id) => RemoveConnectionInfo(p, id)
    case GetTimeoutOp => GetTimeout(p)
    case SetTimeoutOp(t) => SetTimeout(p, t)
  }

  /** Runs operations in order, ignoring their results: the final proxy and everything
      sent to the session. */
  function Run(p: Proxy, ops: seq<Operation>): (Proxy, seq<Request>)
    decreases |ops|
  {
    if |ops| == 0 then (p, [])
    else
      var step := Apply(p, ops[0]);
      var (q, log) := Run(step.proxy, ops[1..]);
      (q, step.emitted + log)
  }

  /** The guard runs first in every operation: when it fails, nothing is sent and
      nothing changes. */
  lemma GuardComesFirst(p: Proxy, op: Operation)
    requires CheckLocal(p).Err?
    ensures Apply(p, op) == Refused(p)
  {
  }

  /** A proxy without a session, or a local-only one, never sends anything, whatever
      it is asked to do. */
  lemma {:induction false} RefusingProxyIsInert(p: Proxy, ops: seq<Operation>)
    requires CheckLocal(p).Err?
    ensures Run(p, ops) == (p, [])
  {
    if |ops| > 0 {
      GuardComesFirst(p, ops[0]);
      RefusingProxyIsInert(p, ops[1..]);
      assert Apply(p, ops[0]).emitted + [] == [];
    }
  }

  /** The guard's order: without a session the error is SessionNotAttached even for a
      local-only proxy. */
  lemma DetachedReportsSession(p: Proxy, op: Operation)
    requires p.session.None?
    ensures Apply(p, op).result == Err(SessionNotAttached)
  {
    GuardComesFirst(p, op);
  }
}

=== FILE: errors.dfy ===
/** The error kinds the modelled code raises. Each names the error code or the
    JavaScript failure that the source throws at that point. */
module Errors {

  import Wrappers

  datatype Error =
      // Union (ErrorCodes.UNION_*)
    | UnionIncorrectDisc
    | UnionNullDiscriminant
    | UnionDiscriminantMismatch
    | UnionDiscriminantSerializationError
    | UnionDiscriminantDeserializationError
      // the primitive (de)serialiser
    | MarshalError
    | UnmarshalError
      // ComObjectImpl.checkLocal
    | SessionNotAttached
    | NotImplemented
      // a failed remote reference-count call; None when the result slot was absent
    | RemoteException(code: Wrappers.Option<int>)
      // dereferencing a field the object has not set yet (a JavaScript TypeError)
    | SessionUnset
    | InterfacePointerUnset
    | ConnectionInfoUnset
    | ContextListUnset
      // a name the file never defines (a JavaScript ReferenceError)
    | UndefinedName(name: string)
      // calling a value that is not a function (a JavaScript TypeError)
    | NotCallable
}

=== FILE: ndr.dfy ===
/** The primitive NDR (de)serialiser the union relies on. The source delegates this
    to MarshalUnMarshalHelper, which is not part of this model; here it is a concrete
    stand-in over a closed set of wire types, little-endian (the default NDR data
    representation), with no alignment padding. What the union needs from it is that
    each type's decoder reads back exactly what its encoder wrote, and no more. */
module Ndr {

  import opened Wrappers
  import opened Errors

  type Byte = b: int | 0 <= b < 0x100

  /** 256^w: the number of values a w-byte unsigned field can hold. */
  function Radix(w: nat): (r: nat)
    ensures r >= 1
  {
    if w == 0 then 1 else 0x100 * Radix(w - 1)
  }

  lemma RadixValues()
    ensures Radix(1) == 0x100
    ensures Radix(2) == 0x1_0000
    ensures Radix(4) == 0x1_0000_0000
  {
  }

  // ---------------------------------------------------------------------------
  // Unsigned little-endian integers
  // ---------------------------------------------------------------------------

  /** The w low-order bytes of n, least significant first; higher bytes are dropped. */
  function ToLE(n: nat, w: nat): (r: seq<Byte>)
    ensures |r| == w
  {
    if w == 0 then [] else [n % 0x100] + ToLE(n / 0x100, w - 1)
  }

  /** The unsigned value of a little-endian byte string. */
  function FromLE(bs: seq<Byte>): (n: nat)
    ensures n < Radix(|bs|)
  {
    if |bs| == 0 then 0 else bs[0] + 0x100 * FromLE(bs[1..])
  }

  lemma MulAtLeast(d: int, k: int)
    requires d > 0 && k >= 1
    ensures d * k >= d
  {
  }

  /** A value below the modulus is its own remainder, with quotient zero. */
  lemma SmallMod(a: int, m: int)
    requires 0 <= a < m
    ensures a % m == a && a / m == 0
  {
  }

  lemma ModUnique(n: int, d: int, q: int, m: int)
    requires d > 0 && 0 <= m < d && n == d * q + m
    ensures n % d == m && n / d == q
  {
    var q', m' := n / d, n % d;
    assert d * q' + m' == d * q + m;
    if q' > q {
      var k := q' - q;
      assert d * q' == d * q + d * k;
      MulAtLeast(d, k);
    } else if q' < q {
      var k := q - q';
      assert d * q == d * q' + d * k;
      MulAtLeast(d, k);
    }
  }

  /** Splitting off the lowest byte commutes with reduction modulo 256 * r. */
  lemma ModSplit(n: nat, r: nat)
    requires r >= 1
    ensures n % (0x100 * r) == n % 0x100 + 0x100 * ((n / 0x100) % r)
  {
    var q := n / 0x100;
    var lo := n % 0x100;
    var a, b := q / r, q % r;
    assert q == r * a + b;
    assert n == 0x100 * q + lo;
    assert n == (0x100 * r) * a + (0x100 * b + lo);
    ModUnique(n, 0x100 * r, a, 0x100 * b + lo);
  }

  /** Reading back w written bytes yields the value reduced modulo 256^w. */
  lemma {:induction false} FromLEToLE(n: nat, w: nat)
    ensures FromLE(ToLE(n, w)) == n % Radix(w)
  {
    if w > 0 {
      var bs := ToLE(n, w);
      assert bs[1..] == ToLE(n / 0x100, w - 1);
      FromLEToLE(n / 0x100, w - 1);
      ModSplit(n, Radix(w - 1));
    }
  }

  /** A value that fits in w bytes survives the round trip unchanged. */
  lemma FromLEToLEFits(n: nat, w: nat)
    requires n < Radix(w)
    ensures FromLE(ToLE(n, w)) == n
  {
    FromLEToLE(n, w);
  }

  // ---------------------------------------------------------------------------
  // Signed integers (two's complement)
  // ---------------------------------------------------------------------------

  type Int16 = i: int | -0x8000 <= i < 0x8000
  type Int32 = i: int | -0x8000_0000 <= i < 0x8000_0000
  type Bytes32 = s: seq<Byte> | |s| < 0x1_0000_0000

  /** The signed value of a w-byte two's-complement field holding u. */
  function Signed(u: nat, w: nat): int
    requires 0 < w
  {
    if u >= Radix(w) / 2 then u - Radix(w) else u
  }

  lemma SignedRoundTrip(i: int, w: nat)
    requires 0 < w && -(Radix(w) / 2) <= i < Radix(w) / 2
    ensures Signed(FromLE(ToLE(i % Radix(w), w)), w) == i
  {
    FromLEToLEFits(i % Radix(w), w);
    assert Radix(w) == 0x100 * Radix(w - 1);
    if i < 0 {
      ModUnique(i, Radix(w), -1, i + Radix(w));
    } else {
      ModUnique(i, Radix(w), 0, i);
    }
  }

  // ---------------------------------------------------------------------------
  // The closed set of wire types
  // ---------------------------------------------------------------------------

  /** The class names MarshalUnMarshalHelper is asked to (de)serialise here. */
  datatype TypeTag = Integer | Short | Boolean | Character | ByteArray {
    /** The four classes a union discriminant may have. */
    predicate IsDiscriminantKind() {
      !ByteArray?
    }
  }

  /** A native value paired with its wire type; a byte array is a conformant array
      (a 32-bit element count followed by the elements). */
  datatype Value =
    | IntVal(i: Int32)
    | ShortVal(s: Int16)
    | BoolVal(b: bool)
    | CharVal(c: Byte)
    | BytesVal(bytes: Bytes32)

  /** The runtime class of a value (MarshalUnMarshalHelper.inferClass). */
  function TagOf(v: Value): TypeTag {
    match v
    case IntVal(_) => Integer
    case ShortVal(_) => Short
    case BoolVal(_) => Boolean
    case CharVal(_) => Character
    case BytesVal(_) => ByteArray
  }

  /** getLengthInBytes(class, null): the fixed width of a class, the count alone for arrays. */
  function Width(t: TypeTag): nat {
    match t
    case Integer => 4
    case Short => 2
    case Boolean => 1
    case Character => 1
    case ByteArray => 4
  }

  /** getLengthInBytes(inferClass(v), v): the number of bytes v occupies on the wire. */
  function LengthOf(v: Value): (n: nat)
    ensures n >= Width(TagOf(v))
  {
    match v
    case BytesVal(bs) => 4 + |bs|
    case _ => Width(TagOf(v))
  }

  /** The wire encoding of a value (MarshalUnMarshalHelper.serialize). */
  function Serialize(v: Value): (r: seq<Byte>)
    ensures |r| == LengthOf(v)
  {
    match v
    case IntVal(i) => ToLE(i % 0x1_0000_0000, 4)
    case ShortVal(s) => ToLE(s % 0x1_0000, 2)
    case BoolVal(b) => [if b then 1 else 0]
    case CharVal(c) => [c]
    case BytesVal(bs) => ToLE(|bs|, 4) + bs
  }

  /** Serialise v as class t; a value of another class is a marshalling error. */
  function SerializeAs(t: TypeTag, v: Value): (r: Result<seq<Byte>, Error>)
    ensures r.Ok? <==> TagOf(v) == t
    ensures r.Ok? ==> r.value == Serialize(v)
  {
    if TagOf(v) == t then Ok(Serialize(v)) else Err(MarshalError)
  }

  /** Read one value of class t from the front of s: the value and the number of
      bytes consumed, or an unmarshalling error when s is too short. */
  function Deserialize(t: TypeTag, s: seq<Byte>): (r: Result<(Value, nat), Error>)
    ensures r.Ok? ==> TagOf(r.value.0) == t
    ensures r.Ok? ==> r.value.1 == LengthOf(r.value.0) <= |s|
    ensures r.Err? <==> |s| < Width(t) || (t == ByteArray && |s| < 4 + FromLE(s[..4]))
  {
    if |s| < Width(t) then Err(UnmarshalError)
    else
      match t
      case Integer =>
        RadixValues();
        Ok((IntVal(Signed(FromLE(s[..4]), 4)), 4))
      case Short =>
        RadixValues();
        Ok((ShortVal(Signed(FromLE(s[..2]), 2)), 2))
      case Boolean => Ok((BoolVal(s[0] != 0), 1))
      case Character => Ok((CharVal(s[0]), 1))
      case ByteArray =>
        RadixValues();
        var n := FromLE(s[..4]);
        if |s| < 4 + n then Err(UnmarshalError)
        else Ok((BytesVal(s[4..4 + n]), 4 + n))
  }

  /** Decoding reads back exactly the value that was encoded, whatever follows it. */
  lemma SerializeRoundTrip(v: Value, rest: seq<Byte>)
    ensures Deserialize(TagOf(v), Serialize(v) + rest) == Ok((v, LengthOf(v)))
  {
    RadixValues();
    var s := Serialize(v) + rest;
    match v
    case IntVal(i) =>
      assert s[..4] == Serialize(v);
      SignedRoundTrip(i, 4);
    case ShortVal(x) =>
      assert s[..2] == Serialize(v);
      SignedRoundTrip(x, 2);
    case BoolVal(b) =>
    case CharVal(c) =>
    case BytesVal(bs) =>
      assert s[..4] == ToLE(|bs|, 4);
      FromLEToLEFits(|bs|, 4);
      assert s[4..4 + |bs|] == bs;
  }
}

=== FILE: union.dfy ===
/** The NDR discriminated union (dcom/core/union.js). A union holds an
    insertion-ordered catalog from discriminant values to members. To be encoded it
    must hold exactly one entry; to decode it serves as the catalog of member shapes
    from which the decoded discriminant picks the member to read. */
module NdrUnion {

  import opened Wrappers
  import opened Errors
  import opened Ndr

  /** The classes the constructor accepts for the discriminant. */
  type DiscKind = t: TypeTag | t.IsDiscriminantKind() witness Integer

  /** A catalog member: the empty-member sentinel (Struct.MEMBER_IS_EMPTY), or a value.
      In a decode catalog the value only stands for the shape (class) of the member. */
  datatype Member = Empty | Present(v: Value)

  datatype Entry = Entry(disc: Value, member: Member)

  datatype Union = Union(kind: DiscKind, entries: seq<Entry>)

  // ---------------------------------------------------------------------------
  // The catalog: a JavaScript Map, which keeps its keys in insertion order
  // ---------------------------------------------------------------------------

  predicate DistinctKeys(es: seq<Entry>) {
    forall i, j :: 0 <= i < j < |es| ==> es[i].disc != es[j].disc
  }

  predicate HasKey(es: seq<Entry>, d: Value) {
    exists i :: 0 <= i < |es| && es[i].disc == d
  }

  /** Map.get: the member stored under d, None when d is absent. */
  function Lookup(es: seq<Entry>, d: Value): (r: Option<Member>)
    ensures r.Some? <==> HasKey(es, d)
    ensures r.Some? ==> Entry(d, r.value) in es

  {
    if |es| == 0 then None
    else if es[0].disc == d then Some(es[0].member)
    else
      HasKeyTail(es, d);
      Lookup(es[1..], d)
  }

  /** Map.set: replaces the member of an existing key in place, otherwise appends. */
  function Put(es: seq<Entry>, d: Value, m: Member): (r: seq<Entry>)
    ensures |r| == if HasKey(es, d) then |es| else |es| + 1
    ensures Lookup(r, d) == Some(m)
    ensures forall k :: k != d ==> Lookup(r, k) == Lookup(es, k)
    ensures forall i :: 0 <= i < |es| && es[i].disc != d ==> r[i] == es[i]
    ensures !HasKey(es, d) ==> r == es + [Entry(d, m)]
    ensures DistinctKeys(es) ==>
              forall i :: 0 <= i < |r| ==> r[i] == if i < |es| && es[i].disc != d then es[i] else Entry(d, m)
  {
    if |es| == 0 then [Entry(d, m)]
    else if es[0].disc == d then [Entry(d, m)] + es[1..]
    else
      HasKeyTail(es, d);
      [es[0]] + Put(es[1..], d, m)
  }

  lemma HasKeyTail(es: seq<Entry>, d: Value)
    requires |es| > 0 && es[0].disc != d
    ensures HasKey(es, d) <==> HasKey(es[1..], d)
  {
    if HasKey(es, d) {
      var i :| 0 <= i < |es| && es[i].disc == d;
      assert es[1..][i - 1].disc == d;
    }
    if HasKey(es[1..], d) {
      var i :| 0 <= i < |es[1..]| && es[1..][i].disc == d;
      assert es[i + 1].disc == d;
    }
  }

  /** The catalog never acquires a duplicate key. */
  lemma PutDistinct(es: seq<Entry>, d: Value, m: Member)
    requires DistinctKeys(es)
    ensures DistinctKeys(Put(es, d, m))
  {
    var r := Put(es, d, m);
    forall i, j | 0 <= i < j < |r|
      ensures r[i].disc != r[j].disc
    {
      if j >= |es| {
        assert r[j].disc == d;
        assert !HasKey(es, d);
      }
    }
  }

  /** Map.delete: drops the entry for d, keeping the others in order. */
  function Remove(es: seq<Entry>, d: Value): (r: seq<Entry>)
    ensures Lookup(r, d) == None
    ensures forall k :: k != d ==> Lookup(r, k) == Lookup(es, k)
    ensures !HasKey(es, d) ==> r == es
    ensures forall e :: e in r ==> e in es
    ensures DistinctKeys(es) ==> DistinctKeys(r)
    ensures DistinctKeys(es) && HasKey(es, d) ==> |r| == |es| - 1
  {
    if |es| == 0 then []
    else if es[0].disc == d then Remove(es[1..], d)
    else
      var tail := Remove(es[1..], d);
      assert DistinctKeys(es) ==> forall e :: e in tail ==> e.disc != es[0].disc by {
        if DistinctKeys(es) {
          forall e | e in tail
            ensures e.disc != es[0].disc
          {
            var j :| 0 <= j < |es[1..]| && es[1..][j] == e;
            assert es[j + 1] == e;
          }
        }
      }
      [es[0]] + tail
  }

  /** What every operation keeps: a discriminant class, distinct keys, and keys of that class. */
  predicate Valid(u: Union) {
    && DistinctKeys(u.entries)
    && forall i :: 0 <= i < |u.entries| ==> TagOf(u.entries[i].disc) == u.kind
  }

  // ---------------------------------------------------------------------------
  // Construction and catalog updates
  // ---------------------------------------------------------------------------

  /** The class name the source passes for a discriminant kind. */
  function KindName(k: DiscKind): string {
    match k
    case Integer => "Integer"
    case Short => "Short"
    case Boolean => "Boolean"
    case Character => "Character"
  }

  function ParseKind(name: string): Option<DiscKind> {
    if name == "Integer" then Some(Integer)
    else if name == "Short" then Some(Short)
    else if name == "Boolean" then Some(Boolean)
    else if name == "Character" then Some(Character)
    else None
  }

  lemma ParseKindName(k: DiscKind)
    ensures ParseKind(KindName(k)) == Some(k)
  {
  }

  /** new Union(discriminantClass); the argument is optional, None when omitted. */
  function New(discriminantClass: Option<string>): (r: Result<Union, Error>)
    ensures r.Ok? <==> discriminantClass.Some?
                       && discriminantClass.value in {"Integer", "Short", "Boolean", "Character"}
    ensures r.Err? ==> r.error == UnionIncorrectDisc
    ensures r.Ok? ==> KindName(r.value.kind) == discriminantClass.value
                      && r.value.entries == [] && Valid(r.value)
  {
    if discriminantClass.None? then Err(UnionIncorrectDisc)
    else
      match ParseKind(discriminantClass.value)
      case None => Err(UnionIncorrectDisc)
      case Some(k) => Ok(Union(k, []))
  }

  /** addMember(discriminant, member): None stands for a null argument. */
  function AddMember(u: Union, discriminant: Option<Value>, member: Option<Value>): (r: Result<Union, Error>)
    ensures discriminant.None? ==> r == Err(UnionNullDiscriminant)
    ensures discriminant.Some? && TagOf(discriminant.value) != u.kind ==> r == Err(UnionDiscriminantMismatch)
    ensures r.Ok? <==> discriminant.Some? && TagOf(discriminant.value) == u.kind
    ensures r.Ok? ==> r.value.kind == u.kind
    ensures r.Ok? ==> Lookup(r.value.entries, discriminant.value)
                      == Some(if member.None? then Empty else Present(member.value))
    ensures r.Ok? ==> forall k :: k != discriminant.value ==> Lookup(r.value.entries, k) == Lookup(u.entries, k)
    ensures r.Ok? && Valid(u) ==> Valid(r.value)
  {
    if discriminant.None? then Err(UnionNullDiscriminant)
    else if TagOf(discriminant.value) != u.kind then Err(UnionDiscriminantMismatch)
    else
      var m := if member.None? then Empty else Present(member.value);
      var es := Put(u.entries, discriminant.value, m);
      assert Valid(u) ==> Valid(Union(u.kind, es)) by {
        if Valid(u) {
          PutDistinct(u.entries, discriminant.value, m);
          forall i | 0 <= i < |es|
            ensures TagOf(es[i].disc) == u.kind
          {
            if i >= |u.entries| || u.entries[i].disc == discriminant.value {
              assert Entry(es[i].disc, es[i].member) in es;
              assert Lookup(es, es[i].disc).Some?;
            }
          }
        }
      }
      Ok(Union(u.kind, es))
  }

  /** removeMember(discriminant). */
  function RemoveMember(u: Union, discriminant: Value): (r: Union)
    ensures r.kind == u.kind
    ensures !HasKey(r.entries, discriminant)
    ensures forall k :: k != discriminant ==> Lookup(r.entries, k) == Lookup(u.entries, k)
    ensures Valid(u) ==> Valid(r)
  {
    var es := Remove(u.entries, discriminant);
    assert Valid(u) ==> Valid(Union(u.kind, es)) by {
      if Valid(u) {
        forall i | 0 <= i < |es|
          ensures TagOf(es[i].disc) == u.kind
        {
          assert Entry(es[i].disc, es[i].member) in es;
          assert Lookup(u.entries, es[i].disc).Some?;
        }
      }
    }
    Union(u.kind, es)
  }

  // ---------------------------------------------------------------------------
  // Encoding and decoding
  // ---------------------------------------------------------------------------

  /** The bytes a member contributes: none for the empty-member sentinel. */
  function MemberBytes(m: Member): (r: seq<Byte>)
    ensures m.Empty? <==> r == []
  {
    match m
    case Empty => []
    case Present(v) => Serialize(v)
  }

  function MemberLength(m: Member): nat {
    match m
    case Empty => 0
    case Present(v) => LengthOf(v)
  }

  /** encode: the discriminant, then the member unless it is the empty sentinel. */
  function Encode(u: Union): (r: Result<seq<Byte>, Error>)
    ensures |u.entries| != 1 ==> r == Err(UnionDiscriminantSerializationError)
    ensures Valid(u) && |u.entries| == 1 ==> r.Ok?
    ensures r.Ok? ==> |r.value| == Width(u.kind) + MemberLength(u.entries[0].member)
    ensures r.Ok? ==> r.value[..Width(u.kind)] == Serialize(u.entries[0].disc)
    ensures r.Ok? ==> r.value[Width(u.kind)..] == MemberBytes(u.entries[0].member)
  {
    if |u.entries| != 1 then Err(UnionDiscriminantSerializationError)
    else
      var e := u.entries[0];
      var discBytes :- SerializeAs(u.kind, e.disc);
      Ok(discBytes + MemberBytes(e.member))
  }

  /** The member shape a decoded discriminant selects: the empty sentinel when absent. */
  function ShapeFor(u: Union, key: Value): Member {
    match Lookup(u.entries, key)
    case None => Empty
    case Some(m) => m
  }

  /** decode: read a discriminant, then the member the catalog registers for it, and
      return a fresh one-entry union with the receiver's discriminant class, together
      with the number of bytes consumed. The receiver is not changed. */
  function Decode(u: Union, s: seq<Byte>): (r: Result<(Union, nat), Error>)
    ensures |u.entries| == 0 ==> r == Err(UnionDiscriminantDeserializationError)
    ensures |u.entries| > 0 && |s| < Width(u.kind) ==> r == Err(UnmarshalError)
    ensures r.Ok? ==> var (res, n) := r.value;
              && res.kind == u.kind && |res.entries| == 1 && Valid(res) && n <= |s|
              && var Entry(key, m) := res.entries[0];
                 && Deserialize(u.kind, s).Ok? && key == Deserialize(u.kind, s).value.0
                 && (m.Present? ==> Deserialize(TagOf(m.v), s[Width(u.kind)..]).Ok?
                                    && m.v == Deserialize(TagOf(m.v), s[Width(u.kind)..]).value.0)
                 && (m.Empty? <==> Lookup(u.entries, key) in {None, Some(Empty)})
                 && (m.Empty? ==> n == Width(u.kind))
                 && (m.Present? ==> Lookup(u.entries, key).Some?
                                    && Lookup(u.entries, key).value.Present?
                                    && TagOf(Lookup(u.entries, key).value.v) == TagOf(m.v)
                                    && n == Width(u.kind) + LengthOf(m.v))
  {
    if |u.entries| == 0 then Err(UnionDiscriminantDeserializationError)
    else
      var (key, w) :- Deserialize(u.kind, s);
      var shape := ShapeFor(u, key);
      if shape.Empty? then Ok((Union(u.kind, [Entry(key, Empty)]), w))
      else
        var (v, n) :- Deserialize(TagOf(shape.v), s[w..]);
        Ok((Union(u.kind, [Entry(key, Present(v))]), w + n))
  }

  /** The catalog c can decode the entry e: it has a shape for e's discriminant of
      the class of e's member, or, for an empty member, no shape or the empty one. */
  predicate Accepts(c: Union, e: Entry) {
    && |c.entries| > 0
    && match e.member
       case Empty => Lookup(c.entries, e.disc) in {None, Some(Empty)}
       case Present(v) =>
         && Lookup(c.entries, e.disc).Some?
         && Lookup(c.entries, e.disc).value.Present?
         && TagOf(Lookup(c.entries, e.disc).value.v) == TagOf(v)
  }

  /** Decoding what a one-entry union encoded, against any catalog that accepts its
      entry, gives back that union and consumes exactly the encoded bytes. */
  lemma DecodeEncode(u: Union, c: Union, rest: seq<Byte>)
    requires Valid(u) && |u.entries| == 1
    requires c.kind == u.kind && Accepts(c, u.entries[0])
    ensures Encode(u).Ok?
    ensures Decode(c, Encode(u).value + rest) == Ok((u, |Encode(u).value|))
  {
    var e := u.entries[0];
    var bytes := Encode(u).value;
    var s := bytes + rest;
    assert bytes == Serialize(e.disc) + MemberBytes(e.member);
    assert s == Serialize(e.disc) + (MemberBytes(e.member) + rest);
    SerializeRoundTrip(e.disc, MemberBytes(e.member) + rest);
    var w := Width(u.kind);
    assert s[w..] == MemberBytes(e.member) + rest;
    match e.member
    case Empty =>
      assert u == Union(u.kind, [Entry(e.disc, Empty)]);
    case Present(v) =>
      SerializeRoundTrip(v, rest);
      assert u == Union(u.kind, [Entry(e.disc, Present(v))]);
  }

  /** A one-entry union is its own decode catalog. */
  lemma DecodeOwnEncoding(u: Union, rest: seq<Byte>)
    requires Valid(u) && |u.entries| == 1
    ensures Encode(u).Ok?
    ensures Decode(u, Encode(u).value + rest) == Ok((u, |Encode(u).value|))
  {
    assert Lookup(u.entries, u.entries[0].disc) == Some(u.entries[0].member);
    DecodeEncode(u, u, rest);
  }

  /** decode as written: the result is built with `new Union()`, whose missing
      argument fails the constructor's guard, so every decode of a non-empty
      catalog throws before a byte is read. */
  function DecodeAsWritten(u: Union, s: seq<Byte>): (r: Result<(Union, nat), Error>)
    ensures |u.entries| == 0 ==> r == Err(UnionDiscriminantDeserializationError)
    ensures |u.entries| > 0 ==> r == Err(UnionIncorrectDisc)
  {
    if |u.entries| == 0 then Err(UnionDiscriminantDeserializationError)
    else
      match New(None)
      case Err(e) => Err(e)
      case Ok(_) => Decode(u, s)
  }

  /** The discrepancy: a catalog that decodes its own encoding under the intended
      reading is refused by the code as written. */
  lemma DecodeAsWrittenRefuses(u: Union)
    requires Valid(u) && |u.entries| == 1
    ensures Decode(u, Encode(u).value).Ok?
    ensures DecodeAsWritten(u, Encode(u).value) == Err(UnionIncorrectDisc)
  {
    DecodeOwnEncoding(u, []);
    assert Encode(u).value + [] == Encode(u).value;
  }

  // ---------------------------------------------------------------------------
  // Size and alignment
  // ---------------------------------------------------------------------------

  /** getAlignment: the discriminant's own alignment when it is wider than a byte. */
  function GetAlignment(u: Union): (r: nat)
    ensures r == 0 || r == Width(u.kind)
    ensures r > 0 <==> Width(u.kind) > 1
  {
    if u.kind == Integer then 4
    else if u.kind == Short then 2
    else 0
  }

  function Max(a: nat, b: nat): nat {
    if a >= b then a else b
  }

  /** The largest wire length among the catalog's discriminants (0 for an empty catalog). */
  function MaxKeyLength(es: seq<Entry>): (r: nat)
    ensures forall i :: 0 <= i < |es| ==> LengthOf(es[i].disc) <= r
    ensures |es| == 0 ==> r == 0
    ensures |es| > 0 ==> exists i :: 0 <= i < |es| && LengthOf(es[i].disc) == r
  {
    if |es| == 0 then 0
    else Max(MaxKeyLength(es[..|es| - 1]), LengthOf(es[|es| - 1].disc))
  }

  /** getLength as written: the loop runs over the catalog's keys (the discriminants),
      not over its members, and adds the discriminant's width. */
  method GetLength(u: Union) returns (length: nat)
    ensures length == MaxKeyLength(u.entries) + Width(u.kind)
    ensures length >= Width(u.kind)
    ensures forall i :: 0 <= i < |u.entries| ==> LengthOf(u.entries[i].disc) + Width(u.kind) <= length
  {
    length := 0;
    var i := 0;
    while i < |u.entries|
      invariant 0 <= i <= |u.entries|
      invariant length == MaxKeyLength(u.entries[..i])
    {
      assert u.entries[..i + 1][..i] == u.entries[..i];
      length := Max(length, LengthOf(u.entries[i].disc));
      i := i + 1;
    }
    assert u.entries[..i] == u.entries;
    length := length + Width(u.kind);
  }

  /** In a valid union every key has the discriminant's class, so getLength as written
      is twice the discriminant's width whenever the catalog is non-empty. */
  lemma {:induction false} KeyLengthIsDiscriminantWidth(es: seq<Entry>, k: DiscKind)
    requires |es| > 0
    requires forall i :: 0 <= i < |es| ==> TagOf(es[i].disc) == k
    ensures MaxKeyLength(es) == Width(k)
  {
    if |es| > 1 {
      KeyLengthIsDiscriminantWidth(es[..|es| - 1], k);
    }
  }

  /** The largest wire length among the catalog's members, the sentinel counting 0. */
  function MaxMemberLength(es: seq<Entry>): (r: nat)
    ensures forall i :: 0 <= i < |es| ==> MemberLength(es[i].member) <= r
    ensures |es| == 0 ==> r == 0
    ensures |es| > 0 ==> exists i :: 0 <= i < |es| && MemberLength(es[i].member) == r
  {
    if |es| == 0 then 0
    else Max(MaxMemberLength(es[..|es| - 1]), MemberLength(es[|es| - 1].member))
  }

  /** The union length as the wire format intends it: the discriminant plus room for
      the largest variant. */
  function GetLengthOfMembers(u: Union): (r: nat)
    ensures r >= Width(u.kind)
    ensures forall i :: 0 <= i < |u.entries| ==> MemberLength(u.entries[i].member) + Width(u.kind) <= r
    ensures |u.entries| == 0 ==> r == Width(u.kind)
    ensures |u.entries| > 0 ==> exists i :: 0 <= i < |u.entries| && MemberLength(u.entries[i].member) + Width(u.kind) == r
  {
    MaxMemberLength(u.entries) + Width(u.kind)
  }

  /** With the intended length, any one entry selected from the catalog encodes
      within the union's length. */
  lemma EncodeFitsLength(u: Union, i: nat)
    requires Valid(u) && i < |u.entries|
    ensures Encode(Union(u.kind, [u.entries[i]])).Ok?
    ensures |Encode(Union(u.kind, [u.entries[i]])).value| <= GetLengthOfMembers(u)
  {
    var single := Union(u.kind, [u.entries[i]]);
    assert Valid(single);
  }

  /** With getLength as written, a union holding a 10-byte array member under an
      Integer discriminant encodes to 18 bytes but reports a length of 8. */
  lemma GetLengthUnderestimates()
    ensures var u := Union(Integer, [Entry(IntVal(1), Present(BytesVal(seq(10, _ => 0))))]);
            && Valid(u)
            && MaxKeyLength(u.entries) + Width(u.kind) == 8
            && Encode(u).Ok? && |Encode(u).value| == 18
            && GetLengthOfMembers(u) == 18
  {
    var u := Union(Integer, [Entry(IntVal(1), Present(BytesVal(seq(10, _ => 0))))]);
    KeyLengthIsDiscriminantWidth(u.entries, Integer);
  }
}

=== FILE: wrappers.dfy ===
/** Option and Result, the failure-compatible wrappers every other module returns.
    A JavaScript `null`/`undefined` becomes `None`; a thrown error becomes `Err`. */
module Wrappers {

  datatype Option<+T> = None | Some(value: T)

  datatype Result<+T, +E> = Ok(value: T) | Err(error: E) {

    predicate IsFailure() {
      Err?
    }

    function PropagateFailure<U>(): Result<U, E>
      requires Err?
    {
      Err(error)
    }

    function Extract(): T
      requires Ok?
    {
      value
    }
  }
}
